=== FILE: README.md ===
# Refund risk gate and review ledger — a Dafny model

This project models the refund pipeline of an e-commerce customer-service agent. A customer
asks for a refund in chat. The conversation graph routes the question by intent. The
`handle_refund` node finds the order, refuses orders and items the policy excludes, and
writes a PENDING refund application. The `check_refund_eligibility` node then tiers the
refund by amount:

- the low tier is approved on the spot;
- the medium and high tiers get a PENDING audit record, a reviewer notification job and a
  WAITING_ADMIN push to the customer's thread, and the graph stops.

A reviewer lists the pending audits and decides one. The decision settles the audit and its
linked refund. An approval enqueues the payment and SMS jobs. The decision also appends a
result card and pushes the verdict to the thread. The customer polls a status endpoint that
reads the thread's newest audit.

Around this core the model also covers:

- the refund service's four-rule eligibility check and its owner-checked applications;
- login, registration and the profile endpoint;
- the websocket registry that carries the pushes;
- the chat endpoint's server-sent-event framing, and the client-side line decoder that reads
  it back.

Modelling conventions:

- Every table is a sequence in insertion order. The row at position `i` has the serial
  primary key `i + 1`, and nothing deletes rows.
- Money is in integer cents. The configured thresholds 500.00 and 2000.00 are 50000 and
  200000.
- Time is in integer seconds. Whole days elapsed are `(now - created) / 86400`, which is
  Python's `timedelta.days` (floor division).
- Effects outside the database are parameters:
  - `notifyJobOk` and `pushOk`: whether enqueueing the reviewer notification and pushing
    the status succeed;
  - `commitOk`: whether the service's commit succeeds;
  - a set of failing sockets for websocket sends;
  - a `Crypto` record for password hashing, verification, e-mail syntax and token signing;
  - a `Codec` record for JSON encoding and decoding.
- Queues and pushes are recorded in the database value as the `jobs` and `pushes` logs, so
  invariants can speak about them.

The end-to-end module `Pipeline` ties the parts together. It runs the gate in its corrected
form (see "## Findings"), which enqueues payment for the refunds it approves:

- the ledger invariant `Valid` (every audit well formed, every PENDING refund unreviewed,
  every APPROVED refund paid) holds after any sequence of intakes, corrected gates,
  decisions and service applications; under the gate as written it fails
  (`Pipeline.AsWrittenGateBreaksValid`);
- a chat turn (intake, then the corrected gate) always walks the graph from START to END;
- the status poll reads WAITING_ADMIN after an escalation and the verdict after a decision.

Two behaviours of the code worth stating plainly:

- A decided audit is final: a second decision on it is answered with 400 and writes
  nothing (`Admin.SecondDecisionFails`).
- The chat endpoint's initial graph state carries no `thread_id`, yet the gate's
  escalation path reads `state["thread_id"]`. `Pipeline.ChatTurn` takes the client's
  thread id as an input, as the status endpoint and the websocket key on it;
  `Pipeline.ChatTurnAsRun` is the turn without it (see "## Findings").

## Model

| member | source | states |
|---|---|---|
| Intake.NormaliseIntent | app/graph/nodes.py:255-259 | the router's tag is always one of ORDER, POLICY, REFUND, OTHER; it is the stripped, upper-cased model output when that is a tag, and OTHER otherwise |
| Intake.ExtractOrderSn | app/graph/nodes.py:329-337 | no order number exactly when no case-insensitive `SN<digit>` occurs; otherwise the leftmost match with its maximal digit run, upper-cased, in canonical `SN<digits>` form |
| Intake.ExtractionVariantsAgree | app/graph/nodes.py:272 | the order-query node's variant (search `SN\d+` in the upper-cased question) extracts the same order number as the intake's case-insensitive search, for every question |
| Intake.ClassifyReason | app/graph/nodes.py:377-388 | quality words win, then size words, then mismatch words, else OTHER; each category holds iff its words occur and no earlier group's do; CHANGED_MIND is never produced |
| Intake.UnderwearNames | app/graph/nodes.py:363-375 | the list of refused item names is empty iff no item name contains 内衣, and every listed name contains it |
| Intake.HandleRefund | app/graph/nodes.py:317-418 | each refusal (no order number, order not found for this user, status outside PAID/SHIPPED/DELIVERED, underwear item) happens exactly under its condition, in order, and writes nothing; otherwise exactly one PENDING, unreviewed refund for the order's total is appended, and refund_data names it |
| RiskGate.Classify | app/graph/nodes.py:445-453 | HIGH iff the amount reaches the high threshold, MEDIUM iff it reaches the medium but not the high one, LOW otherwise; never CRITICAL |
| RiskGate.ClassifyMonotone | app/graph/nodes.py:445-453 | a larger amount never gets a lower tier, whatever the thresholds |
| RiskGate.ClassifyIntervals | app/graph/nodes.py:445-453 | with ordered thresholds, each tier is one interval of amounts: [0, medium), [medium, high), [high, ∞) |
| RiskGate.NewAudit | app/graph/nodes.py:478-495 | the audit the gate writes is PENDING and undecided, carries the tier of the amount, links the refund and order, belongs to the thread and caller, and snapshots question, refund data, order data and history |
| RiskGate.CheckRefundEligibility | app/graph/nodes.py:421-530 | without refund data nothing changes; review is required iff the tier is not LOW; LOW approves the referenced refund and touches nothing else; MEDIUM/HIGH append exactly one new audit, a notification job iff enqueueing succeeds, and a WAITING_ADMIN push iff pushing succeeds, leaving refunds alone |
| RiskGate.CheckRefundEligibilityCorrected | app/graph/nodes.py:453-469 | the same answer and the same refund, audit and push effects as the node, and every refund row the call approves has a payment job |
| RiskGate.AutoApprovalEnqueuesNoPayment | app/graph/nodes.py:453-469 | a 100.00 refund is approved and the customer is told the money is on its way, yet no payment job exists for it |
| RiskGate.CheckRefundEligibilityAsRun | app/graph/nodes.py:429-495 | below the review tiers the node behaves as above; an escalation on a state without a thread id raises, and one whose snapshot holds the order raises at the commit; either way nothing is written |
| RiskGate.EscalationRaisesAsRun | app/graph/nodes.py:479-495 | a 1000.00 refund with its order snapshot gets a PENDING audit in the model of the node, but the node as run raises, for the missing thread id or for the snapshot, and writes nothing |
| Workflow.RouteIntent | app/graph/workflow.py:14-23 | ORDER, POLICY and REFUND select their nodes; every other or missing intent goes to generate |
| Workflow.RouteAfterRefund | app/graph/workflow.py:26-37 | the graph ends iff audit_required is true; a missing flag reads as false |
| Workflow.ConditionalEdgesMatchRouters | app/graph/workflow.py:55-83 | the conditional edge tables are exactly the ranges of the two routing functions |
| Workflow.EdgesDescend | app/graph/workflow.py:52-86 | every edge of the graph lowers the height, and END is the only node without successors |
| Workflow.HeightAlongPath | app/graph/workflow.py:52-86 | along any walk the height drops by at least one per step |
| Workflow.PathsAreShortAndAcyclic | app/graph/workflow.py:41-86 | a walk from START has at most six nodes and never repeats one |
| Workflow.RefundAlwaysPassesGate | app/graph/workflow.py:74-83 | handle_refund is always followed by the risk gate, and the gate is entered only from handle_refund |
| Workflow.Run | app/graph/workflow.py:14-86 | one run is a walk from START to END; it passes the refund nodes iff the intent is REFUND, and skips generate iff the refund was escalated |
| Admin.ListedFrom | app/api/v1/admin.py:61-66 | an entry is listed iff its audit exists, is PENDING and matches a non-empty risk filter exactly |
| Admin.GetPendingTasks | app/api/v1/admin.py:48-86 | the reviewer queue is newest first, a permutation of the matching audits, holds exactly the PENDING audits that match the filter, and lists each audit id at most once |
| Admin.ParseVerdict | app/api/v1/admin.py:125 | exactly the string APPROVE approves; every other action string rejects |
| Admin.LinkedRefund | app/api/v1/admin.py:134-142 | the linked refund is the audit's refund id when that row exists, and none otherwise |
| Admin.AdminDecision | app/api/v1/admin.py:89-207 | 404 for an unknown audit and 400 for a decided one, with nothing written; otherwise only the audit and its linked refund change (verdict, reviewer, comment and review time set, every other field kept); payment and SMS jobs are enqueued exactly on approval of a linked refund; one result card from the reviewer to the audit's customer, carrying the raw action string, the verdict message and the comment, and one push to the thread are appended |
| Admin.SecondDecisionFails | app/api/v1/admin.py:118-122 | a decided audit is final: any second decision on it fails with 400 |
| Admin.AdminDecisionWithEffects | app/api/v1/admin.py:143-190 | with every effect succeeding it is the decision above; a failed enqueue or commit answers 500 and changes no table, keeping the jobs already queued |
| Admin.RetryAfterFailedCommitPaysTwice | app/api/v1/admin.py:143-190 | an approval whose commit fails after both enqueues leaves the audit PENDING; the repeated approval succeeds and the refund ends with two payment jobs |
| ThreadStatus.NewestIn | app/api/v1/status.py:39-46 | the search answers with a row of this thread and caller, if any |
| ThreadStatus.NewestInIsNewest | app/api/v1/status.py:39-46 | the search finds a row iff the thread has one, and no row of the thread is newer than the one it finds |
| ThreadStatus.StatusName | app/api/v1/status.py:58-101 | the endpoint answers one of PROCESSING, WAITING_ADMIN, APPROVED, REJECTED |
| ThreadStatus.RejectReason | app/api/v1/status.py:86 | the rejection text is never empty and is the reviewer's comment whenever that is non-empty |
| ThreadStatus.GetThreadStatus | app/api/v1/status.py:27-101 | PROCESSING iff there is no audit or the newest is ESCALATE; otherwise the newest audit's PENDING, APPROVE or REJECT state with its id, tier, trigger, comment and review time; never COMPLETED or ERROR |
| ThreadStatus.NewestInReplace | app/api/v1/status.py:39-46 | the search sees only thread, caller and creation time: replacing a row by one that agrees on those leaves the answer alone |
| ThreadStatus.NewestInPrefix | app/api/v1/status.py:39-46 | rows appended later do not change the answer over the earlier rows |
| ThreadStatus.OtherThreadsDoNotMatter | app/api/v1/status.py:39-46 | an audit of another thread or another user never changes what a caller reads |
| RefundService.FirstWordIn | app/services/refund_service.py:118-124 | the first listed word that occurs in the name, and none iff no word occurs |
| RefundService.FirstNonRefundable | app/services/refund_service.py:115-126 | the first item with a non-refundable word, with the first such word; none iff every item is refundable |
| RefundService.CheckEligibility | app/services/refund_service.py:43-126 | eligible iff the order is shipped or delivered, no refund of it is PENDING or APPROVED, at most 7 whole days have passed, and no item is non-refundable; otherwise the first failing rule, in that order, is reported with what its message quotes |
| RefundService.DeadlineInSeconds | app/services/refund_service.py:96-112 | an order is late exactly when eight full days (691200 s) have passed, so an order exactly seven days old still passes |
| RefundService.FirstWherePrefix | app/services/refund_service.py:80-93 | appending rows does not change which existing refund blocks the order first |
| RefundService.SettledRefundsDoNotBlock | app/services/refund_service.py:80-93 | adding a REJECTED, COMPLETED or CANCELLED refund never changes the eligibility verdict |
| RefundService.OwnedOrder | app/services/refund_service.py:158-167 | the order is found iff the id exists and the order belongs to the caller |
| RefundService.CreateRefundApplication | app/services/refund_service.py:137-198 | not-found-or-not-owned, ineligible and failed-commit answers write nothing; success exactly when all checks pass and the commit succeeds, appending one PENDING, unreviewed refund for the order's total with the given reason, created now |
| RefundService.NoSecondApplication | app/services/refund_service.py:60-63 | after a successful application the same order is refused, because the new PENDING refund blocks it, and nothing is written |
| RefundService.UserRefundsFrom | app/services/refund_service.py:214-219 | an entry is listed iff it is the caller's refund and has the requested status, if one is given |
| RefundService.GetUserRefundApplications | app/services/refund_service.py:201-224 | the caller's refunds, optionally of one status, newest first, a permutation of the matching rows, each refund id at most once |
| RefundService.GetRefundById | app/services/refund_service.py:227-240 | a refund is returned only to its owner |
| RefundService.CreatedRefundIsVisibleToOwnerOnly | app/services/refund_service.py:137-240 | a new application is found by id and in the listing by its owner, also under PENDING, and by no other user |
| Sorting.Insert | app/services/refund_service.py:221 | inserting into a newest-first list keeps it newest first and adds exactly the one element |
| Sorting.SortNewestFirst | app/services/refund_service.py:221 | `ORDER BY created_at DESC` returns a newest-first permutation of the rows |
| Sorting.SortedMembers | app/api/v1/admin.py:61-63 | sorting neither adds nor loses a row |
| Connections.SocketOf | app/websocket/manager.py:65-74 | a pair has a socket iff the user and thread are registered |
| Connections.ConnectUser | app/websocket/manager.py:26-40 | the pair's socket becomes the new one and no other pair changes; the socket joins the thread's subscribers and nothing leaves them |
| Connections.ConnectAdmin | app/websocket/manager.py:42-46 | the reviewer's socket is replaced and nothing else changes |
| Connections.DisconnectUser | app/websocket/manager.py:48-58 | the pair is forgotten, its socket leaves the thread's subscribers, no other pair changes, and an unknown pair changes nothing |
| Connections.DisconnectAdmin | app/websocket/manager.py:60-63 | exactly that reviewer is forgotten |
| Connections.DisconnectAdminIdempotent | app/websocket/manager.py:60-63 | disconnecting a reviewer twice is the same as once |
| Connections.ConnectThenDisconnect | app/websocket/manager.py:26-58 | connecting and then disconnecting a new pair restores the registry, except that the thread keeps a subscriber entry |
| Connections.SendToUser | app/websocket/manager.py:65-74 | a message goes to the pair's socket only; a failed send disconnects the pair |
| Connections.SendToThread | app/websocket/manager.py:76-88 | every subscriber is attempted, and exactly the failing ones are unsubscribed |
| Connections.BroadcastToAdmins | app/websocket/manager.py:90-102 | every reviewer is attempted, and exactly the failing ones are forgotten |
| Connections.NotifyStatusChange | app/websocket/manager.py:104-131 | the thread gets one status_change (absent data as an empty object); reviewers get a new_audit_task iff the status is WAITING_ADMIN |
| Connections.ReplacedSocketLingers | app/websocket/manager.py:26-40 | a socket replaced by a reconnect stays subscribed and keeps receiving the thread's messages |
| Connections.FailedSocketStaysRegistered | app/websocket/manager.py:76-88 | a socket unsubscribed after a failed send stays registered for its pair |
| Auth.Login | app/api/v1/auth.py:16-98 | 422 on a malformed request; 401 for an unknown user; 403 for a disabled account before the password is looked at; 401 for a wrong password; otherwise a token for that user with its admin flag |
| Auth.DisabledAnswersBeforePassword | app/api/v1/auth.py:74-79 | a disabled account answers 403 whatever password is given |
| Auth.UnknownUserLooksLikeWrongPassword | app/api/v1/auth.py:66-86 | an unknown user and a wrong password get the same answer |
| Auth.Register | app/api/v1/auth.py:22-153 | 422, then a taken username, then a taken (normalised) e-mail refuse without writing; otherwise one active non-admin account with the hashed password and the normalised e-mail is appended and a token is issued for it |
| Auth.RegisterKeepsAccountsUnique | app/api/v1/auth.py:109-138 | registration keeps usernames and e-mail addresses unique |
| Auth.RegisterThenLogin | app/api/v1/auth.py:52-153 | a fresh account logs in with its password and gets the registration's token response |
| Auth.Me | app/api/v1/auth.py:156-180 | 404 iff the id has no account, otherwise that account's profile |
| Auth.RegisterThenMe | app/api/v1/auth.py:101-180 | the profile of a fresh account is what was registered, with the normalised e-mail, as a non-admin |
| Auth.SpellingsOfOneAddressCollide | app/api/v1/auth.py:118-132 | two spellings of one address that normalise alike collide: once one is registered, the other is refused as taken |
| Sse.IndexOf | app/api/v1/chat.py:35 | the first occurrence of the character at or after the start, or the end |
| Sse.ThreadKeySplits | app/api/v1/chat.py:35 | the graph thread key splits back into the decimal user id and the client's thread id |
| Sse.ThreadKeysDistinct | app/api/v1/chat.py:35 | different users or different thread ids never share a graph thread |
| Sse.EventStream | app/api/v1/chat.py:47-68 | one frame per token payload, then a [DONE] frame, or an error frame when the graph raises |
| Sse.Emitted | app/api/v1/chat.py:51-62 | a token is emitted exactly for a model-stream event with non-empty content |
| Sse.Chat | app/api/v1/chat.py:25-70 | 503 iff the graph is not ready; otherwise the composed thread key and the stream |
| Sse.SplitLines | app/frontend/customer_ui.py:63 | no produced line holds a line feed |
| Sse.SplitFrames | app/api/v1/chat.py:62-68 | a run of frames splits into each payload's data line followed by an empty line |
| Sse.Step | app/frontend/customer_ui.py:70-77 | a payload appends a token iff it is an object whose token is a string, and then appends exactly that string; an object whose token is not a string fails the call; an object with an error and no token stops with that error; an object with neither, and an undecodable payload, is skipped |
| Sse.DecodeLines | app/frontend/customer_ui.py:62-77 | a failure is always the stop of some data line's payload |
| Sse.NonDataLineSkipped | app/frontend/customer_ui.py:63-66 | a blank line or a line without the `data: ` prefix is skipped |
| Sse.ErrorLineStops | app/frontend/customer_ui.py:74-75 | a data line whose payload is an object with an error and no token ends the call with that error, whatever follows |
| Sse.SendMessage | app/frontend/customer_ui.py:28-84 | a blank message is refused iff it is blank, without a request; a raising request and a non-200 status fail; success only on 200 |
| Sse.DoneStopsDecoding | app/frontend/customer_ui.py:68-69 | nothing after a [DONE] line is read |
| Sse.DecodeNeverEmptyMessage | app/frontend/customer_ui.py:62-77 | the decoder never reports the empty-message error |
| Sse.DecodeTokenLines | app/frontend/customer_ui.py:62-77 | decoding the token frames yields the tokens in front of whatever follows |
| Sse.StreamRoundTrip | app/api/v1/chat.py:47-68 | a client reading a completed stream receives exactly the streamed tokens, concatenated; reading a failed stream it receives the error |
| Pipeline.HandleRefundKeepsValid | app/graph/nodes.py:390-402 | the intake keeps the ledger invariant |
| Pipeline.CreateApplicationKeepsValid | app/services/refund_service.py:178-194 | a service application keeps the ledger invariant |
| Pipeline.GateKeepsValid | app/graph/nodes.py:421-530 | the corrected gate keeps the ledger invariant: new audits are PENDING and MEDIUM or HIGH, and approved refunds are paid |
| Pipeline.DecisionKeepsValid | app/api/v1/admin.py:125-168 | a decision keeps the ledger invariant: an approved linked refund gets its payment job |
| Pipeline.AsWrittenGateBreaksValid | app/graph/nodes.py:453-469 | the gate as written takes a valid ledger to one with an APPROVED refund that has no payment job |
| Pipeline.LedgerInvariant | app/models/refund.py:9-15 | after any sequence of intakes, corrected gates, decisions and applications from a valid ledger, the ledger is valid and has only grown |
| Pipeline.ChatTurn | app/graph/workflow.py:14-86 | a turn (intake, then the corrected gate) walks from START to END; a non-refund intent writes nothing; generate is skipped iff review is required; with the corrected gate the ledger invariant is kept |
| Pipeline.ChatTurnAsWritten | app/graph/nodes.py:406-437 | with the undeclared `refund_data` dropped, a refund turn ends with what the intake wrote, no review and no audit id, and answers through generate |
| Pipeline.DroppedRefundDataStrandsRefund | app/graph/nodes.py:406-437 | as written, the refund the intake writes stays PENDING with no audit, job or push, while the turn that hands the data on escalates it or approves it |
| Pipeline.ChatTurnAsRun | app/api/v1/chat.py:38-45 | from the endpoint's initial state no turn ever reaches review or writes an audit; a failed turn leaves only the intake's refund |
| Pipeline.EscalationRaisesOnChatPath | app/graph/nodes.py:479-481 | on the chat path an escalating refund raises for the missing thread id and stays PENDING with no audit, job or push, whereas the turn carrying the client's thread id writes the PENDING audit |
| Pipeline.AppendedAuditIsNewest | app/api/v1/status.py:39-46 | an audit appended no earlier than every other audit of its thread is the one the poll reads |
| Pipeline.EscalationReadsWaiting | app/api/v1/status.py:58-70 | after an escalating turn the thread reads WAITING_ADMIN with the new audit's id, tier and trigger |
| Pipeline.DecisionReadsVerdict | app/api/v1/status.py:71-92 | once the newest audit is decided, the thread reads APPROVED or REJECTED with the comment and review time |
| Pipeline.AutoApprovalReadsUnchanged | app/graph/nodes.py:453-469 | an auto-approval leaves what the poll reads unchanged, PROCESSING for a fresh thread, although the refund is APPROVED |
| Pipeline.AutoApprovedRefundIsApproved | app/graph/nodes.py:458-464 | after auto-approval the refund that intake wrote reads APPROVED and the audits are untouched |
| Pipeline.EscalationIsQueued | app/api/v1/admin.py:61-66 | an escalated audit is in the reviewer queue, unfiltered and under its own risk level |
| Pipeline.DecisionLeavesQueue | app/api/v1/admin.py:61-66 | a decision takes exactly its audit out of the reviewer queue |
| Text.Strip | app/frontend/customer_ui.py:30 | the stripped text occurs in the input, has no surrounding whitespace, and is empty iff the input is blank |
| Text.Upper | app/graph/nodes.py:272 | upper-casing keeps the length and maps every character on its own |
| Text.NatToString | app/api/v1/chat.py:35 | a non-negative id renders as a non-empty run of decimal digits |
| Text.ParseNatToString | app/api/v1/chat.py:35 | parsing an id's decimal rendering yields the id |
| Text.NatToStringInjective | app/api/v1/chat.py:35 | different ids render differently |

## Left out

- Natural-language parts of the graph (`intent_router`'s model call, `retrieve`, `query_order`'s answer, `generate`) are outside the model. The router's raw output is an input, and only its normalisation is modelled.
- Answer texts, notification message wording, ISO timestamp rendering, `updated_at` and `decision_metadata` are not modelled. Error details that the model states are the exact strings of the code.
- Text.Upper, Text.Strip, Intake.ExtractOrderSn: only ASCII case mapping, ASCII digits and ASCII whitespace are modelled. Python's `str.upper`, `\d` and `str.strip` also act on other Unicode characters.
- Intake.HandleRefund: the order lookup takes the first matching order. The code's `scalar_one_or_none` would raise on two orders with the same number for one user, which the order table's unique order number rules out.
- Pipeline.ChatTurn, Pipeline.EscalationReadsWaiting, Pipeline.AutoApprovalReadsUnchanged: the graph's `refund_data` key is not declared in the graph state type (app/graph/state.py), and the graph library keeps only declared keys of a node's update, so the gate most likely never sees the intake's refund data and always takes its no-data branch. These members assume the key reaches the gate, as the node code intends; "## Findings" records the behaviour as written (Pipeline.ChatTurnAsWritten).
- Pipeline.ChatTurn: the thread id and the conversation history are inputs of the turn. The endpoint's initial state has no thread id and an empty history (`Pipeline.ChatTurnAsRun` models that state), and the merge of earlier turns by the graph checkpointer (Redis) is not modelled.
- Concurrency, transactions and atomicity across the separate sessions are not modelled. Each operation is one atomic step on the database value.
- Admin.AdminDecision: assumes the payment enqueue, the SMS enqueue and the commit all succeed, and so does everything built on it (Pipeline.DecisionKeepsValid, Pipeline.LedgerInvariant). The enqueues run before the commit and outside any `try` (app/api/v1/admin.py:150-160, 190); Admin.AdminDecisionWithEffects models their failures, and Admin.RetryAfterFailedCommitPaysTwice shows that a retried approval after a failed commit queues a second payment.
- The Celery tasks themselves (`notify_admin_audit`, `process_refund_payment`, `send_refund_sms`) are outside the model. They are recorded as enqueued jobs only.
- The websocket accept handshake, heartbeats, the message timestamps and the JSON wire format are not modelled. JSON objects in messages are string maps.
- Password hashing, e-mail syntax, e-mail normalisation, token signing and JSON encoding are abstract functions. Only the properties the proofs need are assumed of them: a password verifies against its own hash, and JSON decoding inverts encoding.
- The 422 validation response body is not modelled, only its status.
- Sse.SplitLines: `iter_lines` also splits on carriage returns and delivers the body in chunks. The server never writes a carriage return, so the model splits on line feeds only.
- Sse.SendMessage: the status poll after a successful stream (`check_status`) and the error-message texts are not modelled.
- ThreadStatus.NewestIn: on equal creation times SQL leaves the order unspecified. The model picks the later row.
- RefundService.CheckEligibility: the existing-refund lookup ends in `.first()` without an ORDER BY, so when an order has several PENDING or APPROVED refunds (reachable, since the chat intake writes refunds without this check) SQL leaves unspecified which one is quoted. The model quotes the first in table order, and RefundService.FirstWherePrefix is a property of that choice. The `refundId` carried by `ExistingRefund` is never shown in the message, which quotes only the status.
- `RefundReviewService.approve_refund` and `reject_refund` in app/services/refund_service.py are empty placeholders that do nothing. Reviewer decisions go through `admin_decision`, which is modelled.
- app/graph/tools.py is not part of this model.
- Money is exact cents. The code converts the amount to `float` (app/graph/nodes.py:397,413, app/api/v1/admin.py:152), and most two-decimal amounts have no exact binary float. The tier comparisons still agree with exact cents: the thresholds 500.00 and 2000.00 are exact floats, and every other two-decimal amount lies at least 0.01 away from them, far beyond the conversion error. The amounts handed to the payment and SMS jobs are not modelled as floats.

## Findings

| source | as written | input that shows it | evidently intended | confidence | as-written member | corrected member |
|---|---|---|---|---|---|---|
| app/graph/nodes.py:453-469 | the low-tier branch sets the refund APPROVED and tells the customer the money will be returned in 3-5 working days, but enqueues no `process_refund_payment` job; only the reviewer path (app/api/v1/admin.py:150-160) enqueues one | a refund of 100.00 (below the 500.00 threshold) on a delivered order | an auto-approved refund gets the same payment and SMS jobs as a reviewer approval | medium, not executed | RiskGate.CheckRefundEligibility (counterexamples RiskGate.AutoApprovalEnqueuesNoPayment, Pipeline.AsWrittenGateBreaksValid) | RiskGate.CheckRefundEligibilityCorrected (invariant Pipeline.GateKeepsValid, Pipeline.LedgerInvariant) |
| app/graph/nodes.py:406-437 | the intake returns its refund under `refund_data`, a key the graph state type (app/graph/state.py) does not declare; the graph keeps only declared keys, so the gate reads no refund data, writes no audit and routes to generate, and the new refund stays PENDING | a refund request on a delivered order of 1000.00 (or of 100.00) | the gate receives the intake's refund data and escalates or approves the refund | low: plausible, rests on the graph library's handling of undeclared keys; not executed | Pipeline.ChatTurnAsWritten (Pipeline.DroppedRefundDataStrandsRefund) | Pipeline.ChatTurn (Pipeline.EscalationReadsWaiting, Pipeline.AutoApprovalReadsUnchanged, Pipeline.DroppedRefundDataStrandsRefund) |
| app/graph/nodes.py:479-481 | the escalation path builds the audit from `state["thread_id"]`, but the chat endpoint's initial state (app/api/v1/chat.py:38-45) has no such key and no node writes one, so the node raises KeyError before writing anything | a 1000.00 refund on a delivered order, once the refund data reaches the gate | the audit records the client's thread id, which the status endpoint and the websocket key on | medium: definite once the refund data reaches the gate; not executed | RiskGate.CheckRefundEligibilityAsRun, Pipeline.ChatTurnAsRun (Pipeline.EscalationRaisesOnChatPath) | Pipeline.ChatTurn (Pipeline.EscalationReadsWaiting, Pipeline.EscalationRaisesOnChatPath) |
| app/graph/nodes.py:487-495 | the audit's snapshot stores `order.model_dump()`, whose date-times and decimal amount the plain JSON column (app/models/audit.py:72-75) cannot serialise with the engine's default serialiser, so the commit most likely raises and no audit is written | the same 1000.00 refund, with a thread id supplied | the snapshot is stored in a JSON-safe form and the PENDING audit is written | low: plausible, rests on the database driver's JSON serialiser; not executed | RiskGate.CheckRefundEligibilityAsRun (RiskGate.EscalationRaisesAsRun) | RiskGate.CheckRefundEligibility, whose snapshot is stored as a value (Pipeline.EscalationReadsWaiting) |

=== FILE: admin.dfy ===
/** The reviewer endpoints of app/api/v1/admin.py: the queue of pending audits and the
    decision that settles one audit and its linked refund. */
module Admin {
  import opened Wrappers
  import opened Models
  import Sorting

  // ---------------------------------------------------------------------------
  // get_pending_tasks
  // ---------------------------------------------------------------------------

  /** One entry of the reviewer queue: the audit id and the audit row. */
  datatype AuditTask = AuditTask(auditLogId: nat, log: AuditLog)

  /** The queue's `WHERE` clause: PENDING, and the exact risk level when a non-empty
      filter is given. */
  predicate Listed(a: AuditLog, riskFilter: Option<string>) {
    a.action == Pending && (riskFilter.None? || riskFilter.value == "" || a.risk.Name() == riskFilter.value)
  }

  /** The listed audits from position `from` on, in table order. */
  function ListedFrom(audits: seq<AuditLog>, riskFilter: Option<string>, from: nat): (r: seq<AuditTask>)
    requires from <= |audits|
    ensures forall t :: t in r <==>
              from < t.auditLogId <= |audits| && t.log == audits[t.auditLogId - 1] && Listed(t.log, riskFilter)
    ensures forall i, j :: 0 <= i < j < |r| ==> r[i].auditLogId < r[j].auditLogId
    decreases |audits| - from
  {
    if from == |audits| then []
    else
      var rest := ListedFrom(audits, riskFilter, from + 1);
      if Listed(audits[from], riskFilter) then [AuditTask(from + 1, audits[from])] + rest else rest
  }

  function CreatedAt(t: AuditTask): int {
    t.log.createdAt
  }

  /** `get_pending_tasks`: every listed audit, each once, newest first. */
  function GetPendingTasks(db: Db, riskFilter: Option<string>): (r: seq<AuditTask>)
    ensures Sorting.SortedDesc(r, CreatedAt)
    ensures multiset(r) == multiset(ListedFrom(db.audits, riskFilter, 0))
    ensures forall t :: t in r <==>
              1 <= t.auditLogId <= |db.audits| && t.log == db.audits[t.auditLogId - 1] &&
              Listed(t.log, riskFilter)
    ensures forall i, j :: 0 <= i < j < |r| ==> r[i].auditLogId != r[j].auditLogId
  {
    var listed := ListedFrom(db.audits, riskFilter, 0);
    var r := Sorting.SortNewestFirst(listed, CreatedAt);
    forall t ensures t in r <==> t in listed {
      Sorting.SortedMembers(listed, CreatedAt, t);
    }
    Sorting.PermutationKeepsDistinct(r, listed);
    forall i, j | 0 <= i < j < |r| ensures r[i].auditLogId != r[j].auditLogId {
      assert r[i] in listed && r[j] in listed;
    }
    r
  }

  // ---------------------------------------------------------------------------
  // admin_decision
  // ---------------------------------------------------------------------------

  /** Exactly the string "APPROVE" approves; every other action string rejects. */
  function ParseVerdict(action: string): (v: AuditAction)
    ensures v == Approve <==> action == "APPROVE"
    ensures v == Reject <==> action != "APPROVE"
  {
    if action == "APPROVE" then Approve else Reject
  }

  /** The audit row with the decision recorded. */
  function RecordDecision(a: AuditLog, verdict: AuditAction, comment: Option<string>, adminId: int, now: int): AuditLog {
    a.(action := verdict, adminId := Some(adminId), adminComment := comment, reviewedAt := Some(now))
  }

  /** The refund row with the decision recorded. */
  function ReviewRefund(r: Refund, verdict: AuditAction, comment: Option<string>, adminId: int, now: int): Refund {
    r.(status := if verdict == Approve then RefundApproved else RefundRejected,
       adminNote := comment, reviewedBy := Some(adminId), reviewedAt := Some(now))
  }

  /** The refund the audit links to, when the link is set and the row exists. */
  function LinkedRefund(refunds: seq<Refund>, a: AuditLog): (id: Option<nat>)
    ensures id.Some? ==> a.refundId == Some(id.value) && 1 <= id.value <= |refunds|
    ensures id.None? ==> a.refundId.None? || !(1 <= a.refundId.value <= |refunds|)
  {
    if a.refundId.Some? && 1 <= a.refundId.value <= |refunds| then Some(a.refundId.value) else None
  }

  /** The fields that describe the case and never change on a decision. */
  predicate SameCase(a: AuditLog, b: AuditLog) {
    && a.threadId == b.threadId && a.userId == b.userId && a.orderId == b.orderId
    && a.refundId == b.refundId && a.trigger == b.trigger && a.risk == b.risk
    && a.snapshot == b.snapshot && a.createdAt == b.createdAt
  }

  function DecisionMessageFor(verdict: AuditAction, comment: Option<string>): DecisionMessage {
    if verdict == Approve then ApprovedNotice else RejectedNotice(comment)
  }

  datatype DecisionResponse = DecisionResponse(success: bool, auditLogId: nat, action: string)

  const AuditNotFound: ApiError := ApiError(404, "Audit log not found")
  const AlreadyProcessed: ApiError := ApiError(400, "This audit has already been processed")

  /** `admin_decision`: settle a PENDING audit, review its linked refund, enqueue the
      payment and SMS jobs on approval, append the result card and push the raw action
      string to the thread. */
  function AdminDecision(db: Db, auditLogId: int, action: string, comment: Option<string>,
                         adminId: int, now: int): (r: Result<(Db, DecisionResponse), ApiError>)
    ensures Row(db.audits, auditLogId).None? ==> r == Failure(AuditNotFound)
    ensures Row(db.audits, auditLogId).Some? && db.audits[auditLogId - 1].action != Pending ==>
              r == Failure(AlreadyProcessed)
    ensures r.Success? <==> Row(db.audits, auditLogId).Some? && db.audits[auditLogId - 1].action == Pending
    ensures r.Success? ==> |r.value.0.audits| == |db.audits|
    ensures r.Success? ==>
              var (db', resp) := r.value;
              var a := db.audits[auditLogId - 1];
              var a' := db'.audits[auditLogId - 1];
              var verdict := ParseVerdict(action);
              var link := LinkedRefund(db.refunds, a);
              && resp == DecisionResponse(true, auditLogId, action)
              && db'.orders == db.orders
              // the audit: verdict, reviewer, comment and time recorded; the case untouched
              && (forall i :: 0 <= i < |db.audits| && i != auditLogId - 1 ==> db'.audits[i] == db.audits[i])
              && SameCase(a, a') && Decided(a')
              && a'.action == verdict && a'.adminId == Some(adminId)
              && a'.adminComment == comment && a'.reviewedAt == Some(now)
              // the linked refund follows the verdict; without one the table is unchanged
              && (link.None? ==> db'.refunds == db.refunds)
              && (link.Some? ==>
                    && |db'.refunds| == |db.refunds|
                    && (forall i :: 0 <= i < |db.refunds| && i != link.value - 1 ==> db'.refunds[i] == db.refunds[i])
                    // status, note, reviewer and review time set; every other field kept
                    && db'.refunds[link.value - 1] ==
                         db.refunds[link.value - 1].(status := if verdict == Approve then RefundApproved else RefundRejected,
                                                     adminNote := comment, reviewedBy := Some(adminId),
                                                     reviewedAt := Some(now)))
              // payment and SMS exactly on approval of an existing refund
              && (verdict == Approve && link.Some? ==>
                    db'.jobs == db.jobs + ApprovalJobs(link.value, db.refunds[link.value - 1].refundAmount))
              && (verdict != Approve || link.None? ==> db'.jobs == db.jobs)
              // one result card and one push, carrying the raw action string
              && |db'.cards| == |db.cards| + 1 && db'.cards[..|db.cards|] == db.cards
              && db'.cards[|db.cards|] ==
                   MessageCard(a.threadId, AuditCard, Sent, AuditResult(action, DecisionMessageFor(verdict, comment), comment),
                               "admin", Some(adminId), Some(a.userId))
              && db'.pushes == db.pushes + [Push(a.threadId, action, DecisionData(DecisionMessageFor(verdict, comment), comment))]
  {
    match Row(db.audits, auditLogId)
    case None => Failure(AuditNotFound)
    case Some(a) =>
      if a.action != Pending then Failure(AlreadyProcessed)
      else
        var verdict := ParseVerdict(action);
        var audits' := db.audits[auditLogId - 1 := RecordDecision(a, verdict, comment, adminId, now)];
        var link := LinkedRefund(db.refunds, a);
        var refunds' :=
          if link.Some? then db.refunds[link.value - 1 := ReviewRefund(db.refunds[link.value - 1], verdict, comment, adminId, now)]
          else db.refunds;
        var jobs' :=
          if link.Some? && verdict == Approve
          then db.jobs + ApprovalJobs(link.value, db.refunds[link.value - 1].refundAmount)
          else db.jobs;
        var message := DecisionMessageFor(verdict, comment);
        var card := MessageCard(a.threadId, AuditCard, Sent, AuditResult(action, message, comment),
                                "admin", Some(adminId), Some(a.userId));
        var push := Push(a.threadId, action, DecisionData(message, comment));
        var db' := db.(audits := audits', refunds := refunds', jobs := jobs',
                       cards := db.cards + [card], pushes := db.pushes + [push]);
        assert db'.cards[..|db.cards|] == db.cards;
        Success((db', DecisionResponse(true, auditLogId, action)))
  }

  /** A decided audit is final: a second decision on it fails and changes nothing,
      whatever action it carries. */
  lemma SecondDecisionFails(db: Db, id: int, first: string, second: string, c1: Option<string>,
                            c2: Option<string>, admin1: int, admin2: int, t1: int, t2: int)
    requires AdminDecision(db, id, first, c1, admin1, t1).Success?
    ensures AdminDecision(AdminDecision(db, id, first, c1, admin1, t1).value.0, id, second, c2, admin2, t2)
              == Failure(AlreadyProcessed)
  {
  }

  // ---------------------------------------------------------------------------
  // The decision's effects that can raise
  // ---------------------------------------------------------------------------

  /** Whether the payment enqueue, the SMS enqueue and the commit succeed. The two
      enqueues run before the commit and outside any `try`. */
  datatype DecisionEffects = DecisionEffects(paymentJobOk: bool, smsJobOk: bool, commitOk: bool)

  const AllSucceed: DecisionEffects := DecisionEffects(true, true, true)

  const InternalError: ApiError := ApiError(500, "Internal Server Error")

  /** `admin_decision` with its raising effects. A broker error or a failed commit
      answers 500 and leaves every table as it was, but the jobs already handed to the
      broker stay queued; the push happens only after the commit. */
  function AdminDecisionWithEffects(db: Db, auditLogId: int, action: string, comment: Option<string>,
                                    adminId: int, now: int, fx: DecisionEffects): (r: (Db, Result<DecisionResponse, ApiError>))
    ensures fx == AllSucceed ==>
              var d := AdminDecision(db, auditLogId, action, comment, adminId, now);
              && (d.Success? ==> r == (d.value.0, Success(d.value.1)))
              && (d.Failure? ==> r == (db, Failure(d.error)))
    ensures AdminDecision(db, auditLogId, action, comment, adminId, now).Success? && !fx.commitOk ==>
              r.1 == Failure(InternalError)
    // a failure changes no table; only jobs may have been queued
    ensures r.1.Failure? ==>
              && r.0 == db.(jobs := r.0.jobs)
              && |db.jobs| <= |r.0.jobs| && r.0.jobs[..|db.jobs|] == db.jobs
    // an approval of a linked refund whose enqueues ran but whose commit failed leaves
    // both jobs queued for a still PENDING audit
    ensures AdminDecision(db, auditLogId, action, comment, adminId, now).Success? &&
            fx.paymentJobOk && fx.smsJobOk && !fx.commitOk &&
            ParseVerdict(action) == Approve && LinkedRefund(db.refunds, db.audits[auditLogId - 1]).Some? ==>
              var rid := LinkedRefund(db.refunds, db.audits[auditLogId - 1]).value;
              r.0 == db.(jobs := db.jobs + ApprovalJobs(rid, db.refunds[rid - 1].refundAmount))
  {
    var d := AdminDecision(db, auditLogId, action, comment, adminId, now);
    if d.Failure? then (db, Failure(d.error))
    else
      var a := db.audits[auditLogId - 1];
      var link := LinkedRefund(db.refunds, a);
      var enqueues := ParseVerdict(action) == Approve && link.Some?;
      var jobs := if enqueues then ApprovalJobs(link.value, db.refunds[link.value - 1].refundAmount) else [];
      if enqueues && !fx.paymentJobOk then (db, Failure(InternalError))
      else if enqueues && !fx.smsJobOk then
        assert (db.jobs + jobs[..1])[..|db.jobs|] == db.jobs;
        (db.(jobs := db.jobs + jobs[..1]), Failure(InternalError))
      else if !fx.commitOk then
        assert (db.jobs + jobs)[..|db.jobs|] == db.jobs;
        (db.(jobs := db.jobs + jobs), Failure(InternalError))
      else (d.value.0, Success(d.value.1))
  }

  /** A failed commit after the enqueues, then the reviewer repeats the approval: the
      audit is still PENDING, so the retry succeeds and the refund ends with two payment
      jobs. */
  lemma RetryAfterFailedCommitPaysTwice(db: Db, id: int, comment: Option<string>, adminId: int, t1: int, t2: int)
    requires AdminDecision(db, id, "APPROVE", comment, adminId, t1).Success?
    requires LinkedRefund(db.refunds, db.audits[id - 1]).Some?
    ensures var rid := LinkedRefund(db.refunds, db.audits[id - 1]).value;
            var jobs := ApprovalJobs(rid, db.refunds[rid - 1].refundAmount);
            var (db1, r1) := AdminDecisionWithEffects(db, id, "APPROVE", comment, adminId, t1, DecisionEffects(true, true, false));
            var (db2, r2) := AdminDecisionWithEffects(db1, id, "APPROVE", comment, adminId, t2, AllSucceed);
            && r1 == Failure(InternalError) && db1.audits[id - 1].action == Pending
            && r2.Success?
            && db2.jobs == db.jobs + jobs + jobs
  {
    var rid := LinkedRefund(db.refunds, db.audits[id - 1]).value;
    var jobs := ApprovalJobs(rid, db.refunds[rid - 1].refundAmount);
    var db1 := db.(jobs := db.jobs + jobs);
    assert AdminDecisionWithEffects(db, id, "APPROVE", comment, adminId, t1, DecisionEffects(true, true, false)).0 == db1;
    assert LinkedRefund(db1.refunds, db1.audits[id - 1]) == Some(rid);
  }
}

=== FILE: auth.dfy ===
/** The account endpoints of app/api/v1/auth.py: login, registration and the current
    user's profile. Password hashing, password verification, e-mail syntax and token
    signing are opaque functions passed in by the caller. */
module Auth {
  import opened Wrappers
  import opened Models

  datatype User = User(
    username: string,
    passwordHash: string,
    email: string,
    fullName: string,
    phone: Option<string>,
    isAdmin: bool,
    isActive: bool)

  /** The opaque operations the endpoints call. `emailOk` is the e-mail field's syntax
      check and `normaliseEmail` the form the validated field hands on (domain
      lower-cased, display name dropped). */
  datatype Crypto = Crypto(
    hash: string -> string,
    verify: (string, string) -> bool,
    token: (nat, bool) -> string,
    emailOk: string -> bool,
    normaliseEmail: string -> string)

  /** Hashing and verification agree: a password verifies against its own hash. */
  ghost predicate Sound(c: Crypto) {
    forall p :: c.verify(p, c.hash(p))
  }

  datatype LoginRequest = LoginRequest(username: string, password: string)

  datatype RegisterRequest = RegisterRequest(
    username: string,
    password: string,
    email: string,
    fullName: string,
    phone: Option<string>)

  datatype TokenResponse = TokenResponse(
    accessToken: string,
    tokenType: string,
    userId: nat,
    username: string,
    fullName: string,
    isAdmin: bool)

  datatype UserInfo = UserInfo(
    userId: nat,
    username: string,
    email: string,
    fullName: string,
    phone: Option<string>,
    isAdmin: bool)

  const BadCredentials: ApiError := ApiError(401, "用户名或密码错误")
  const AccountDisabled: ApiError := ApiError(403, "账号已被禁用，请联系管理员")
  const UsernameTaken: ApiError := ApiError(400, "用户名已存在")
  const EmailTaken: ApiError := ApiError(400, "邮箱已被注册")
  const UserNotFound: ApiError := ApiError(404, "用户不存在")
  /** The request body failed field validation; the framework's error body is not
      modelled. */
  const Unprocessable: ApiError := ApiError(422, "request validation failed")

  /** The field constraints of the request models, in characters. */
  predicate ValidLogin(req: LoginRequest) {
    3 <= |req.username| <= 50 && |req.password| >= 6
  }

  predicate ValidRegister(req: RegisterRequest, c: Crypto) {
    && 3 <= |req.username| <= 50 && |req.password| >= 6
    && c.emailOk(req.email) && 2 <= |req.fullName| <= 100
  }

  /** No two accounts share a username or an e-mail address. */
  predicate UniqueAccounts(users: seq<User>) {
    forall i, j :: 0 <= i < j < |users| ==> users[i].username != users[j].username && users[i].email != users[j].email
  }

  function UserByName(users: seq<User>, username: string): Option<nat> {
    FirstWhere(users, (u: User) => u.username == username)
  }

  function UserByEmail(users: seq<User>, email: string): Option<nat> {
    FirstWhere(users, (u: User) => u.email == email)
  }

  /** The response for an authenticated user. */
  function Issue(users: seq<User>, id: nat, c: Crypto): TokenResponse
    requires 1 <= id <= |users|
  {
    var u := users[id - 1];
    TokenResponse(c.token(id, u.isAdmin), "bearer", id, u.username, u.fullName, u.isAdmin)
  }

  /** `login`: unknown user 401, disabled account 403 (before the password is looked
      at), wrong password 401 with the same detail, otherwise a token for that user. */
  function Login(users: seq<User>, req: LoginRequest, c: Crypto): (r: Result<TokenResponse, ApiError>)
    ensures !ValidLogin(req) ==> r == Failure(Unprocessable)
    ensures ValidLogin(req) && UserByName(users, req.username).None? ==> r == Failure(BadCredentials)
    ensures ValidLogin(req) && UserByName(users, req.username).Some? ==>
              var id := UserByName(users, req.username).value;
              var u := users[id - 1];
              && (!u.isActive ==> r == Failure(AccountDisabled))
              && (u.isActive && !c.verify(req.password, u.passwordHash) ==> r == Failure(BadCredentials))
              && (u.isActive && c.verify(req.password, u.passwordHash) ==> r == Success(Issue(users, id, c)))
    ensures r.Success? ==>
              && 1 <= r.value.userId <= |users|
              && users[r.value.userId - 1].username == req.username
              && users[r.value.userId - 1].isActive
              && c.verify(req.password, users[r.value.userId - 1].passwordHash)
              && r.value.isAdmin == users[r.value.userId - 1].isAdmin
              && r.value.accessToken == c.token(r.value.userId, r.value.isAdmin)
  {
    if !ValidLogin(req) then Failure(Unprocessable)
    else
      match UserByName(users, req.username)
      case None => Failure(BadCredentials)
      case Some(id) =>
        var u := users[id - 1];
        if !u.isActive then Failure(AccountDisabled)
        else if !c.verify(req.password, u.passwordHash) then Failure(BadCredentials)
        else Success(Issue(users, id, c))
  }

  /** A disabled account answers 403 whatever password is given. */
  lemma DisabledAnswersBeforePassword(users: seq<User>, username: string, p1: string, p2: string, c: Crypto)
    requires ValidLogin(LoginRequest(username, p1)) && ValidLogin(LoginRequest(username, p2))
    requires UserByName(users, username).Some? && !users[UserByName(users, username).value - 1].isActive
    ensures Login(users, LoginRequest(username, p1), c) == Login(users, LoginRequest(username, p2), c)
                == Failure(AccountDisabled)
  {
  }

  /** An unknown username and a wrong password are indistinguishable to the caller. */
  lemma UnknownUserLooksLikeWrongPassword(users: seq<User>, unknown: LoginRequest, wrong: LoginRequest, c: Crypto)
    requires ValidLogin(unknown) && UserByName(users, unknown.username).None?
    requires ValidLogin(wrong) && UserByName(users, wrong.username).Some?
    requires var u := users[UserByName(users, wrong.username).value - 1];
             u.isActive && !c.verify(wrong.password, u.passwordHash)
    ensures Login(users, unknown, c) == Login(users, wrong, c)
  {
  }

  /** `register`: a taken username, then a taken e-mail, is refused without writing;
      otherwise one active, non-admin account with the hashed password is appended.
      The e-mail is looked up and stored in its normalised form. */
  function Register(users: seq<User>, req: RegisterRequest, c: Crypto): (r: (seq<User>, Result<TokenResponse, ApiError>))
    ensures !ValidRegister(req, c) ==> r == (users, Failure(Unprocessable))
    ensures ValidRegister(req, c) && UserByName(users, req.username).Some? ==> r == (users, Failure(UsernameTaken))
    ensures ValidRegister(req, c) && UserByName(users, req.username).None? && UserByEmail(users, c.normaliseEmail(req.email)).Some? ==>
              r == (users, Failure(EmailTaken))
    ensures r.1.Failure? ==> r.0 == users
    ensures r.1.Success? <==>
              ValidRegister(req, c) && UserByName(users, req.username).None? && UserByEmail(users, c.normaliseEmail(req.email)).None?
    ensures r.1.Success? ==>
              && r.0 == users + [User(req.username, c.hash(req.password), c.normaliseEmail(req.email), req.fullName, req.phone, false, true)]
              && r.1.value == Issue(r.0, |r.0|, c)
              && !r.1.value.isAdmin
  {
    if !ValidRegister(req, c) then (users, Failure(Unprocessable))
    else if UserByName(users, req.username).Some? then (users, Failure(UsernameTaken))
    else if UserByEmail(users, c.normaliseEmail(req.email)).Some? then (users, Failure(EmailTaken))
    else
      var users' := users + [User(req.username, c.hash(req.password), c.normaliseEmail(req.email), req.fullName, req.phone, false, true)];
      (users', Success(Issue(users', |users'|, c)))
  }

  /** Registration keeps usernames and e-mail addresses unique. */
  lemma RegisterKeepsAccountsUnique(users: seq<User>, req: RegisterRequest, c: Crypto)
    requires UniqueAccounts(users)
    ensures UniqueAccounts(Register(users, req, c).0)
  {
    var (users', r) := Register(users, req, c);
    if r.Success? {
      var n := |users|;
      forall i, j | 0 <= i < j < |users'|
        ensures users'[i].username != users'[j].username && users'[i].email != users'[j].email
      {
        if j == n {
          assert users'[i] == users[i];
          assert UserByName(users, req.username).None? && UserByEmail(users, c.normaliseEmail(req.email)).None?;
        }
      }
    }
  }

  /** A freshly registered account can log in with its password, as a non-admin. */
  lemma RegisterThenLogin(users: seq<User>, req: RegisterRequest, c: Crypto)
    requires Sound(c) && UniqueAccounts(users)
    requires Register(users, req, c).1.Success?
    ensures var (users', reg) := Register(users, req, c);
            Login(users', LoginRequest(req.username, req.password), c) == reg
  {
    var (users', reg) := Register(users, req, c);
    var n := |users'|;
    var p := (u: User) => u.username == req.username;
    assert p(users'[n - 1]);
    assert forall i :: 0 <= i < n - 1 ==> !p(users'[i]) by {
      forall i | 0 <= i < n - 1 ensures !p(users'[i]) {
        assert users'[i] == users[i];
      }
    }
    assert UserByName(users', req.username) == Some(n);
    assert c.verify(req.password, c.hash(req.password));
  }

  /** `/me`: the caller's profile, or 404 when the id has no row. */
  function Me(users: seq<User>, userId: int): (r: Result<UserInfo, ApiError>)
    ensures r.Failure? <==> !(1 <= userId <= |users|)
    ensures r.Failure? ==> r.error == UserNotFound
    ensures r.Success? ==>
              var u := users[userId - 1];
              r.value == UserInfo(userId, u.username, u.email, u.fullName, u.phone, u.isAdmin)
  {
    if 1 <= userId <= |users| then
      var u := users[userId - 1];
      Success(UserInfo(userId, u.username, u.email, u.fullName, u.phone, u.isAdmin))
    else Failure(UserNotFound)
  }

  /** The profile of a freshly registered account is what was registered, with the
      e-mail in its normalised form. */
  lemma RegisterThenMe(users: seq<User>, req: RegisterRequest, c: Crypto)
    requires Register(users, req, c).1.Success?
    ensures var (users', reg) := Register(users, req, c);
            Me(users', reg.value.userId) ==
              Success(UserInfo(|users'|, req.username, c.normaliseEmail(req.email), req.fullName, req.phone, false))
  {
  }

  /** Two spellings of one address are one address: once either is registered, the
      other is refused as taken, whoever registers it. */
  lemma SpellingsOfOneAddressCollide(users: seq<User>, first: RegisterRequest, second: RegisterRequest, c: Crypto)
    requires Register(users, first, c).1.Success?
    requires ValidRegister(second, c) && second.username != first.username
    requires UserByName(users, second.username).None?
    requires c.normaliseEmail(second.email) == c.normaliseEmail(first.email)
    ensures var users' := Register(users, first, c).0;
            Register(users', second, c) == (users', Failure(EmailTaken))
  {
    var users' := Register(users, first, c).0;
    var n := |users'|;
    assert users'[n - 1].email == c.normaliseEmail(second.email);
    assert UserByName(users', second.username).None? by {
      var p := (u: User) => u.username == second.username;
      forall i | 0 <= i < n ensures !p(users'[i]) {
        if i < n - 1 {
          assert users'[i] == users[i];
        }
      }
    }
  }
}

=== FILE: connections.dfy ===
/** The websocket connection registry of app/websocket/manager.py: customer sockets
    per user and thread, one socket per reviewer, and the sockets subscribed to each
    thread. Sockets are opaque ids; whether a send fails is an input (the set of
    sockets whose send raises). Accepting a socket and the wire format are not
    modelled. */
module Connections {
  import opened Wrappers

  datatype Socket = Socket(id: nat)

  datatype Registry = Registry(
    active: map<int, map<string, Socket>>,
    admins: map<int, Socket>,
    subscribers: map<string, set<Socket>>)

  const Empty: Registry := Registry(map[], map[], map[])

  /** A user with an entry has at least one thread: `disconnect_user` deletes a user's
      entry once its last thread is gone. */
  predicate Valid(reg: Registry) {
    forall u :: u in reg.active ==> reg.active[u] != map[]
  }

  /** The socket registered for a user's thread, if any. */
  function SocketOf(reg: Registry, userId: int, threadId: string): (ws: Option<Socket>)
    ensures ws.Some? <==> userId in reg.active && threadId in reg.active[userId]
    ensures ws.Some? ==> ws.value == reg.active[userId][threadId]
  {
    if userId in reg.active && threadId in reg.active[userId] then Some(reg.active[userId][threadId]) else None
  }

  /** The sockets subscribed to a thread; an unknown thread has none. */
  function Subscribers(reg: Registry, threadId: string): set<Socket> {
    if threadId in reg.subscribers then reg.subscribers[threadId] else {}
  }

  /** `connect_user`: register the socket for the pair, replacing any earlier one, and
      subscribe it to the thread. The replaced socket stays subscribed. */
  function ConnectUser(reg: Registry, ws: Socket, userId: int, threadId: string): (reg': Registry)
    ensures SocketOf(reg', userId, threadId) == Some(ws)
    ensures forall u, t :: (u, t) != (userId, threadId) ==> SocketOf(reg', u, t) == SocketOf(reg, u, t)
    ensures Subscribers(reg', threadId) == Subscribers(reg, threadId) + {ws}
    ensures forall t :: t != threadId ==> Subscribers(reg', t) == Subscribers(reg, t)
    ensures threadId in reg'.subscribers
    ensures reg'.subscribers.Keys == reg.subscribers.Keys + {threadId}
    ensures reg'.active.Keys == reg.active.Keys + {userId}
    ensures reg'.admins == reg.admins
    ensures Valid(reg) ==> Valid(reg')
  {
    var threads := if userId in reg.active then reg.active[userId] else map[];
    reg.(active := reg.active[userId := threads[threadId := ws]],
         subscribers := reg.subscribers[threadId := Subscribers(reg, threadId) + {ws}])
  }

  /** `connect_admin`: one socket per reviewer, the last connection wins. */
  function ConnectAdmin(reg: Registry, ws: Socket, adminId: int): (reg': Registry)
    ensures adminId in reg'.admins && reg'.admins[adminId] == ws
    ensures forall a :: a != adminId ==> (a in reg'.admins <==> a in reg.admins)
    ensures forall a :: a != adminId && a in reg.admins ==> reg'.admins[a] == reg.admins[a]
    ensures reg'.active == reg.active && reg'.subscribers == reg.subscribers
  {
    reg.(admins := reg.admins[adminId := ws])
  }

  /** `disconnect_user`: forget the pair's socket, unsubscribe it from the thread and
      drop the user once no thread is left. */
  function DisconnectUser(reg: Registry, userId: int, threadId: string): (reg': Registry)
    ensures SocketOf(reg', userId, threadId).None?
    ensures forall u, t :: (u, t) != (userId, threadId) ==> SocketOf(reg', u, t) == SocketOf(reg, u, t)
    ensures SocketOf(reg, userId, threadId).Some? && threadId in reg.subscribers ==>
              reg'.subscribers == reg.subscribers[threadId := reg.subscribers[threadId] - {SocketOf(reg, userId, threadId).value}]
    ensures SocketOf(reg, userId, threadId).None? || threadId !in reg.subscribers ==>
              reg'.subscribers == reg.subscribers
    ensures reg'.admins == reg.admins
    ensures Valid(reg) ==> Valid(reg')
    // an unknown pair changes nothing
    ensures Valid(reg) && SocketOf(reg, userId, threadId).None? ==> reg' == reg
  {
    if userId !in reg.active then reg
    else
      var threads := reg.active[userId];
      var subscribers' :=
        if threadId in threads && threadId in reg.subscribers
        then reg.subscribers[threadId := reg.subscribers[threadId] - {threads[threadId]}]
        else reg.subscribers;
      var threads' := threads - {threadId};
      assert forall t :: t != threadId ==> (t in threads' <==> t in threads);
      assert threadId !in threads ==> threads' == threads;
      var active' := if threads' == map[] then reg.active - {userId} else reg.active[userId := threads'];
      assert threads' == map[] ==> forall t :: t != threadId ==> t !in threads;
      reg.(active := active', subscribers := subscribers')
  }

  /** `disconnect_admin`: forget the reviewer's socket, if any. */
  function DisconnectAdmin(reg: Registry, adminId: int): (reg': Registry)
    ensures reg'.admins == reg.admins - {adminId}
    ensures reg'.active == reg.active && reg'.subscribers == reg.subscribers
  {
    reg.(admins := reg.admins - {adminId})
  }

  /** Disconnecting a reviewer twice is the same as once. */
  lemma DisconnectAdminIdempotent(reg: Registry, adminId: int)
    ensures DisconnectAdmin(DisconnectAdmin(reg, adminId), adminId) == DisconnectAdmin(reg, adminId)
  {
  }

  /** Connecting a fresh socket for a new pair and disconnecting it again restores the
      registry, except that the thread keeps a (possibly empty) subscriber set. */
  lemma ConnectThenDisconnect(reg: Registry, ws: Socket, userId: int, threadId: string)
    requires Valid(reg)
    requires SocketOf(reg, userId, threadId).None?
    requires ws !in Subscribers(reg, threadId)
    ensures DisconnectUser(ConnectUser(reg, ws, userId, threadId), userId, threadId)
              == reg.(subscribers := reg.subscribers[threadId := Subscribers(reg, threadId)])
  {
    var mid := ConnectUser(reg, ws, userId, threadId);
    var r := DisconnectUser(mid, userId, threadId);
    assert Subscribers(reg, threadId) + {ws} - {ws} == Subscribers(reg, threadId);
    if userId in reg.active {
      assert mid.active[userId] - {threadId} == reg.active[userId];
      assert r.active == reg.active;
    } else {
      assert mid.active[userId] - {threadId} == map[];
      assert r.active == reg.active;
    }
  }

  /** The message types the registry sends. JSON objects are modelled as string maps;
      the timestamp is not modelled. */
  datatype Message =
    | StatusChange(threadId: string, status: string, data: map<string, string>)
    | NewAuditTask(threadId: string, taskData: Option<map<string, string>>)

  /** One send: the sockets it was attempted on, and the message. */
  datatype Sent = Sent(recipients: set<Socket>, message: Message)

  /** `send_to_user`: send to the pair's socket only; a failed send disconnects the pair. */
  function SendToUser(reg: Registry, userId: int, threadId: string, m: Message, fails: set<Socket>): (r: (Registry, seq<Sent>))
    ensures SocketOf(reg, userId, threadId).None? ==> r == (reg, [])
    ensures SocketOf(reg, userId, threadId).Some? ==>
              var ws := SocketOf(reg, userId, threadId).value;
              && r.1 == [Sent({ws}, m)]
              && (ws in fails ==> r.0 == DisconnectUser(reg, userId, threadId) && SocketOf(r.0, userId, threadId).None?)
              && (ws !in fails ==> r.0 == reg)
  {
    match SocketOf(reg, userId, threadId)
    case None => (reg, [])
    case Some(ws) =>
      (if ws in fails then DisconnectUser(reg, userId, threadId) else reg, [Sent({ws}, m)])
  }

  /** `send_to_thread`: attempt every subscriber, then drop exactly the subscribers
      whose send failed. The customer map is left as it is. */
  function SendToThread(reg: Registry, threadId: string, m: Message, fails: set<Socket>): (r: (Registry, seq<Sent>))
    ensures threadId !in reg.subscribers ==> r == (reg, [])
    ensures threadId in reg.subscribers ==>
              && r.1 == [Sent(reg.subscribers[threadId], m)]
              && r.0.subscribers.Keys == reg.subscribers.Keys
              && (forall ws :: ws in r.0.subscribers[threadId] <==> ws in reg.subscribers[threadId] && ws !in fails)
              && (forall t :: t in reg.subscribers && t != threadId ==> r.0.subscribers[t] == reg.subscribers[t])
    ensures r.0.active == reg.active && r.0.admins == reg.admins
  {
    if threadId !in reg.subscribers then (reg, [])
    else
      var subs := reg.subscribers[threadId];
      (reg.(subscribers := reg.subscribers[threadId := subs - fails]), [Sent(subs, m)])
  }

  /** The sockets of all connected reviewers. */
  function AdminSockets(admins: map<int, Socket>): set<Socket> {
    set a | a in admins :: admins[a]
  }

  /** `broadcast_to_admins`: attempt every reviewer, then drop exactly those whose send
      failed. */
  function BroadcastToAdmins(reg: Registry, m: Message, fails: set<Socket>): (r: (Registry, seq<Sent>))
    ensures r.1 == [Sent(AdminSockets(reg.admins), m)]
    ensures forall a :: a in r.0.admins <==> a in reg.admins && reg.admins[a] !in fails
    ensures forall a :: a in r.0.admins ==> r.0.admins[a] == reg.admins[a]
    ensures r.0.active == reg.active && r.0.subscribers == reg.subscribers
  {
    var kept := map a | a in reg.admins && reg.admins[a] !in fails :: reg.admins[a];
    (reg.(admins := kept), [Sent(AdminSockets(reg.admins), m)])
  }

  /** `notify_status_change`: one status_change to the thread's subscribers (absent
      data is sent as an empty object), and a new_audit_task to every reviewer
      exactly when the status is WAITING_ADMIN. */
  function NotifyStatusChange(reg: Registry, threadId: string, status: string, data: Option<map<string, string>>,
                              threadFails: set<Socket>, adminFails: set<Socket>): (r: (Registry, seq<Sent>))
    ensures var (mid, first) := SendToThread(reg, threadId, StatusChange(threadId, status, data.GetOr(map[])), threadFails);
            && |first| <= |r.1| && r.1[..|first|] == first
            && (status == "WAITING_ADMIN" ==>
                  r.1 == first + [Sent(AdminSockets(mid.admins), NewAuditTask(threadId, data))])
            && (status != "WAITING_ADMIN" ==> r == (mid, first))
    ensures (exists k :: 0 <= k < |r.1| && r.1[k].message.NewAuditTask?) <==> status == "WAITING_ADMIN"
    ensures r.0.active == reg.active
    ensures Valid(reg) ==> Valid(r.0)
  {
    var (mid, first) := SendToThread(reg, threadId, StatusChange(threadId, status, data.GetOr(map[])), threadFails);
    if status == "WAITING_ADMIN" then
      var (after, second) := BroadcastToAdmins(mid, NewAuditTask(threadId, data), adminFails);
      assert (first + second)[|first|].message.NewAuditTask?;
      assert (first + second)[..|first|] == first;
      (after, first + second)
    else (mid, first)
  }

  /** A socket replaced by a reconnect of the same pair stays subscribed to the thread
      and keeps receiving the thread's messages. */
  lemma ReplacedSocketLingers()
    ensures var reg := ConnectUser(ConnectUser(Empty, Socket(1), 7, "7_t"), Socket(2), 7, "7_t");
            && SocketOf(reg, 7, "7_t") == Some(Socket(2))
            && Socket(1) in reg.subscribers["7_t"]
            && SendToThread(reg, "7_t", StatusChange("7_t", "APPROVED", map[]), {}).1
                 == [Sent({Socket(1), Socket(2)}, StatusChange("7_t", "APPROVED", map[]))]
  {
    var reg := ConnectUser(ConnectUser(Empty, Socket(1), 7, "7_t"), Socket(2), 7, "7_t");
    assert reg.subscribers["7_t"] == {Socket(1), Socket(2)};
  }

  /** A socket dropped from a thread after a failed send stays registered for its
      user and thread. */
  lemma FailedSocketStaysRegistered()
    ensures var reg := ConnectUser(Empty, Socket(1), 7, "7_t");
            var (reg', _) := SendToThread(reg, "7_t", StatusChange("7_t", "APPROVED", map[]), {Socket(1)});
            && SocketOf(reg', 7, "7_t") == Some(Socket(1))
            && Socket(1) !in reg'.subscribers["7_t"]
  {
  }
}

=== FILE: gate.dfy ===
/** The risk gate of the conversation graph: `check_refund_eligibility` in
    app/graph/nodes.py, which tiers a freshly written refund by amount, auto-approves
    the low tier and escalates the others to a PENDING audit record.

    Two versions are modelled. `CheckRefundEligibility` is the node as written: its
    auto-approval path enqueues no payment job. `CheckRefundEligibilityCorrected`
    additionally enqueues the payment and SMS jobs that the reviewer-approval path
    enqueues; the end-to-end model uses the corrected version. */
module RiskGate {
  import opened Wrappers
  import opened Models

  /** The two configured thresholds, in cents. */
  datatype Thresholds = Thresholds(medium: int, high: int)

  /** The configuration defaults: 500.00 and 2000.00. */
  const DefaultThresholds: Thresholds := Thresholds(50000, 200000)

  /** The order of the tiers, lowest first. */
  function Rank(r: RiskLevel): nat {
    match r
    case Low => 0
    case Medium => 1
    case High => 2
    case Critical => 3
  }

  /** The tier of a refund amount; both boundaries belong to the higher tier. */
  function Classify(amount: int, th: Thresholds): (r: RiskLevel)
    ensures r != Critical
    ensures r == High <==> amount >= th.high
    ensures r == Medium <==> th.medium <= amount < th.high
    ensures r == Low <==> amount < th.medium && amount < th.high
  {
    if amount >= th.high then High
    else if amount >= th.medium then Medium
    else Low
  }

  /** A larger amount never gets a lower tier, whatever the thresholds. */
  lemma ClassifyMonotone(a: int, b: int, th: Thresholds)
    requires a <= b
    ensures Rank(Classify(a, th)) <= Rank(Classify(b, th))
  {
  }

  /** With the medium threshold at most the high one, each tier is exactly one
      interval of amounts. */
  lemma ClassifyIntervals(amount: int, th: Thresholds)
    requires th.medium <= th.high
    ensures Classify(amount, th) == Low <==> amount < th.medium
    ensures Classify(amount, th) == Medium <==> th.medium <= amount < th.high
    ensures Classify(amount, th) == High <==> th.high <= amount
  {
  }

  /** The graph state the gate reads. The thread id is an explicit input: the chat
      endpoint's initial state does not carry one. */
  datatype TurnState = TurnState(
    question: string,
    userId: int,
    threadId: string,
    history: seq<string>,
    orderData: Option<Order>,
    refundData: Option<RefundData>)

  datatype GateAnswer =
    | Unchanged
    | AutoApproved(refundId: nat, amount: int)
    | AwaitingReview(refundId: nat, amount: int, risk: RiskLevel, trigger: Trigger)

  /** The gate's state update: `audit_required`, `audit_log_id` and the answer. */
  datatype GateResult = GateResult(auditRequired: bool, auditLogId: Option<nat>, answer: GateAnswer)

  /** The trigger recorded for an escalated amount. */
  function TriggerFor(amount: int, th: Thresholds): Trigger {
    var level := Classify(amount, th);
    Trigger(level, amount, if level == High then th.high else th.medium)
  }

  /** The audit record the gate writes: it starts PENDING and undecided. */
  function NewAudit(st: TurnState, data: RefundData, th: Thresholds, now: int): (a: AuditLog)
    ensures Undecided(a)
    ensures a.risk == Classify(data.amount, th)
    ensures a.refundId == Some(data.refundId) && a.orderId == Some(data.orderId)
    ensures a.threadId == st.threadId && a.userId == st.userId
    ensures a.snapshot == Snapshot(st.question, data, st.orderData, st.history)
  {
    AuditLog(st.threadId, Some(data.orderId), Some(data.refundId), st.userId,
             TriggerFor(data.amount, th), Classify(data.amount, th), Pending, None, None,
             Snapshot(st.question, data, st.orderData, st.history), now, None)
  }

  /** The auto-approval of a refund row: APPROVED with a review time and nothing else
      changed (no reviewer and no note are recorded). */
  function AutoApprove(r: Refund, now: int): Refund {
    r.(status := RefundApproved, reviewedAt := Some(now))
  }

  /** The refund table after the low-tier path: the referenced row, if any, approved. */
  predicate AutoApprovedTable(before: seq<Refund>, after: seq<Refund>, rid: nat, now: int) {
    if 1 <= rid <= |before| then after == before[rid - 1 := AutoApprove(before[rid - 1], now)]
    else after == before
  }

  /** `check_refund_eligibility` as written. `notifyJobOk` and `pushOk` say whether
      enqueueing the reviewer notification and pushing WAITING_ADMIN succeed; the
      node swallows either failure and keeps the audit record. */
  function CheckRefundEligibility(db: Db, st: TurnState, th: Thresholds, now: int,
                                  notifyJobOk: bool, pushOk: bool): (r: (Db, GateResult))
    // no refund data: nothing written, answer unchanged
    ensures st.refundData.None? ==> r == (db, GateResult(false, None, Unchanged))
    // audit required exactly for the medium and high tiers
    ensures r.1.auditRequired <==>
              st.refundData.Some? && Classify(st.refundData.value.amount, th) != Low
    ensures r.1.auditLogId.Some? <==> r.1.auditRequired
    ensures r.0.orders == db.orders && r.0.cards == db.cards
    // low tier: the refund is approved, no audit, job or push
    ensures st.refundData.Some? && !r.1.auditRequired ==>
              var data := st.refundData.value;
              && AutoApprovedTable(db.refunds, r.0.refunds, data.refundId, now)
              && r.0.audits == db.audits && r.0.jobs == db.jobs && r.0.pushes == db.pushes
              && r.1.answer == AutoApproved(data.refundId, data.amount)
    // medium and high tiers: exactly one new PENDING audit, refunds untouched
    ensures r.1.auditRequired ==>
              var data := st.refundData.value;
              var id := |db.audits| + 1;
              && r.0.refunds == db.refunds
              && r.0.audits == db.audits + [NewAudit(st, data, th, now)]
              && r.1.auditLogId == Some(id)
              && r.0.jobs == db.jobs + (if notifyJobOk then [NotifyAdminAudit(id)] else [])
              && r.0.pushes == db.pushes +
                   (if pushOk then [Push(st.threadId, "WAITING_ADMIN",
                                         WaitingAdminData(Classify(data.amount, th),
                                                          TriggerFor(data.amount, th), id, data.amount))]
                    else [])
  {
    match st.refundData
    case None => (db, GateResult(false, None, Unchanged))
    case Some(data) =>
      var level := Classify(data.amount, th);
      if level == Low then
        var refunds' :=
          if 1 <= data.refundId <= |db.refunds|
          then db.refunds[data.refundId - 1 := AutoApprove(db.refunds[data.refundId - 1], now)]
          else db.refunds;
        (db.(refunds := refunds'), GateResult(false, None, AutoApproved(data.refundId, data.amount)))
      else
        var audit := NewAudit(st, data, th, now);
        var id := |db.audits| + 1;
        var jobs' := if notifyJobOk then db.jobs + [NotifyAdminAudit(id)] else db.jobs;
        var push := Push(st.threadId, "WAITING_ADMIN", WaitingAdminData(level, audit.trigger, id, data.amount));
        var pushes' := if pushOk then db.pushes + [push] else db.pushes;
        (db.(audits := db.audits + [audit], jobs := jobs', pushes := pushes'),
         GateResult(true, Some(id), AwaitingReview(data.refundId, data.amount, level, audit.trigger)))
  }

  /** The gate as evidently intended: identical, except that an auto-approved refund
      row also gets the payment and SMS jobs an approval enqueues. */
  function CheckRefundEligibilityCorrected(db: Db, st: TurnState, th: Thresholds, now: int,
                                           notifyJobOk: bool, pushOk: bool): (r: (Db, GateResult))
    ensures var (db1, res1) := CheckRefundEligibility(db, st, th, now, notifyJobOk, pushOk);
            && r.1 == res1
            && r.0.refunds == db1.refunds && r.0.audits == db1.audits && r.0.pushes == db1.pushes
    // every refund row this call approves has a payment job
    ensures forall id ::
              (1 <= id <= |db.refunds| && db.refunds[id - 1].status != RefundApproved &&
               r.0.refunds[id - 1].status == RefundApproved) ==> PaymentEnqueued(r.0.jobs, id)
    // nothing enqueued before is lost
    ensures |db.jobs| <= |r.0.jobs| && r.0.jobs[..|db.jobs|] == db.jobs
  {
    var (db1, res1) := CheckRefundEligibility(db, st, th, now, notifyJobOk, pushOk);
    if st.refundData.Some? && !res1.auditRequired && 1 <= st.refundData.value.refundId <= |db.refunds| then
      var data := st.refundData.value;
      var jobs' := db1.jobs + ApprovalJobs(data.refundId, data.amount);
      assert jobs'[|db1.jobs|].ProcessRefundPayment?;
      assert jobs'[..|db.jobs|] == db.jobs;
      (db1.(jobs := jobs'), res1)
    else
      assert db1.jobs[..|db.jobs|] == db.jobs;
      (db1, res1)
  }

  /** The defect of the node as written: a low-tier refund ends APPROVED, the customer
      is told the money is on its way, yet no payment job exists for it. */
  lemma AutoApprovalEnqueuesNoPayment()
    ensures var order := Order("SN1", 7, Delivered, 10000, [], 0);
            var refund := Refund(1, 7, RefundPending, Some(Other), "SN1", 10000, None, None, None, 0);
            var db := Db([order], [refund], [], [], [], []);
            var data := RefundData(1, 1, "SN1", 10000, "SN1", Other);
            var st := TurnState("SN1", 7, "7_t", [], Some(order), Some(data));
            var (db', res) := CheckRefundEligibility(db, st, DefaultThresholds, 1, true, true);
            && db'.refunds[0].status == RefundApproved
            && res.answer == AutoApproved(1, 10000)
            && !PaymentEnqueued(db'.jobs, 1)
  {
  }

  // ---------------------------------------------------------------------------
  // The node as the chat endpoint runs it
  // ---------------------------------------------------------------------------

  /** Why the node as written raises on its escalation path, before anything is
      committed. */
  datatype GateFault =
    | MissingThreadId          // `state["thread_id"]` on a state without the key
    | SnapshotNotSerialisable  // the audit's JSON column refuses the order snapshot

  /** The graph state as the chat endpoint builds it: the thread id is present only
      when some writer has set it. */
  datatype GraphState = GraphState(
    question: string,
    userId: int,
    threadId: Option<string>,
    history: seq<string>,
    orderData: Option<Order>,
    refundData: Option<RefundData>)

  /** The order snapshot the intake hands on is the order row rendered as Python
      values, date-times and a decimal amount included, which the JSON column's default
      serialiser refuses; only a missing order serialises (as null). */
  predicate SnapshotSerialisable(orderData: Option<Order>) {
    orderData.None?
  }

  /** The amount of the refund data calls for a review. */
  predicate Escalates(gs: GraphState, th: Thresholds) {
    gs.refundData.Some? && Classify(gs.refundData.value.amount, th) != Low
  }

  /** `check_refund_eligibility` on the state the graph actually holds. The escalation
      path reads `state["thread_id"]` while building the audit and then commits the
      snapshot; either can raise, and then nothing is written. The low tier reads
      neither. */
  function CheckRefundEligibilityAsRun(db: Db, gs: GraphState, th: Thresholds, now: int,
                                       notifyJobOk: bool, pushOk: bool): (r: (Db, Result<GateResult, GateFault>))
    ensures !Escalates(gs, th) ==>
              var (db1, g) := CheckRefundEligibility(db, TurnState(gs.question, gs.userId, "", gs.history,
                                                                   gs.orderData, gs.refundData), th, now, notifyJobOk, pushOk);
              r == (db1, Success(g)) && !g.auditRequired
    ensures Escalates(gs, th) && gs.threadId.None? ==> r == (db, Failure(MissingThreadId))
    ensures Escalates(gs, th) && gs.threadId.Some? && !SnapshotSerialisable(gs.orderData) ==>
              r == (db, Failure(SnapshotNotSerialisable))
    ensures Escalates(gs, th) && gs.threadId.Some? && SnapshotSerialisable(gs.orderData) ==>
              var (db1, g) := CheckRefundEligibility(db, TurnState(gs.question, gs.userId, gs.threadId.value, gs.history,
                                                                   gs.orderData, gs.refundData), th, now, notifyJobOk, pushOk);
              r == (db1, Success(g)) && g.auditRequired
    ensures r.1.Failure? ==> r.0 == db
  {
    var st := TurnState(gs.question, gs.userId, gs.threadId.GetOr(""), gs.history, gs.orderData, gs.refundData);
    if Escalates(gs, th) && gs.threadId.None? then (db, Failure(MissingThreadId))
    else if Escalates(gs, th) && !SnapshotSerialisable(gs.orderData) then (db, Failure(SnapshotNotSerialisable))
    else
      var (db1, g) := CheckRefundEligibility(db, st, th, now, notifyJobOk, pushOk);
      (db1, Success(g))
  }

  /** A 1000.00 refund with its order snapshot: the node as modelled above writes a
      PENDING audit, while the node as run raises, on the chat path for the missing
      thread id and with a thread id for the snapshot, and writes nothing. */
  lemma EscalationRaisesAsRun()
    ensures var order := Order("SN1", 7, Delivered, 100000, [], 0);
            var refund := Refund(1, 7, RefundPending, Some(Other), "SN1", 100000, None, None, None, 0);
            var db := Db([order], [refund], [], [], [], []);
            var data := RefundData(1, 1, "SN1", 100000, "SN1", Other);
            var st := TurnState("SN1", 7, "7_t", [], Some(order), Some(data));
            var onChat := GraphState("SN1", 7, None, [], Some(order), Some(data));
            var withId := GraphState("SN1", 7, Some("7_t"), [], Some(order), Some(data));
            && |CheckRefundEligibility(db, st, DefaultThresholds, 1, true, true).0.audits| == 1
            && CheckRefundEligibilityAsRun(db, onChat, DefaultThresholds, 1, true, true) == (db, Failure(MissingThreadId))
            && CheckRefundEligibilityAsRun(db, withId, DefaultThresholds, 1, true, true) == (db, Failure(SnapshotNotSerialisable))
  {
  }
}

=== FILE: intake.dfy ===
/** The refund intake of the conversation graph (app/graph/nodes.py): intent
    normalisation, order-number extraction, reason classification and the
    `handle_refund` node that writes a PENDING refund. */
module Intake {
  import opened Wrappers
  import opened Text
  import opened Models

  // ---------------------------------------------------------------------------
  // Intent normalisation (intent_router)
  // ---------------------------------------------------------------------------

  /** The four intent tags the router accepts. */
  const IntentTags: seq<string> := ["ORDER", "POLICY", "REFUND", "OTHER"]

  /** `raw.strip().upper()`, replaced by "OTHER" unless it is one of the four tags. */
  function NormaliseIntent(raw: string): (tag: string)
    ensures tag in IntentTags
    ensures tag == "OTHER" || tag == Upper(Strip(raw))
    ensures Upper(Strip(raw)) in IntentTags ==> tag == Upper(Strip(raw))
  {
    var t := Upper(Strip(raw));
    if t in IntentTags then t else "OTHER"
  }

  // ---------------------------------------------------------------------------
  // Order-number extraction
  // ---------------------------------------------------------------------------

  /** The pattern `SN\d+` with IGNORECASE matches at index `i`. */
  predicate SnAt(s: string, i: int) {
    0 <= i && i + 2 < |s| && UpperChar(s[i]) == 'S' && UpperChar(s[i + 1]) == 'N' && IsDigit(s[i + 2])
  }

  /** `i` is the leftmost match of the pattern. */
  predicate LeftmostSn(s: string, i: int) {
    SnAt(s, i) && forall j :: 0 <= j < i ==> !SnAt(s, j)
  }

  /** A canonical order number: "SN" followed by at least one digit. */
  predicate IsOrderSn(x: string) {
    |x| >= 3 && x[0] == 'S' && x[1] == 'N' && AllDigits(x[2..])
  }

  /** The end of the maximal run of digits starting at `from` (greedy `\d+`). */
  function DigitsEnd(s: string, from: nat): (k: nat)
    requires from <= |s|
    ensures from <= k <= |s|
    ensures forall m :: from <= m < k ==> IsDigit(s[m])
    ensures k == |s| || !IsDigit(s[k])
    decreases |s| - from
  {
    if from < |s| && IsDigit(s[from]) then DigitsEnd(s, from + 1) else from
  }

  /** The first match of the pattern at or after `from`. */
  function FindSn(s: string, from: nat): (p: Option<nat>)
    requires from <= |s|
    ensures p.Some? ==> from <= p.value && SnAt(s, p.value)
    ensures forall q :: from <= q && (p.None? || q < p.value) ==> !SnAt(s, q)
    decreases |s| - from
  {
    if from == |s| then None
    else if SnAt(s, from) then Some(from)
    else FindSn(s, from + 1)
  }

  /** `re.search(r'(SN\d+)', question, re.IGNORECASE).group(1).upper()`: the leftmost
      case-insensitive "SN" followed by the maximal run of digits, upper-cased. */
  function ExtractOrderSn(question: string): (r: Option<string>)
    ensures r.None? <==> forall i :: 0 <= i < |question| ==> !SnAt(question, i)
    ensures r.Some? ==> IsOrderSn(r.value)
    ensures r.Some? ==> exists p :: LeftmostSn(question, p) &&
                          r.value == "SN" + question[p + 2..DigitsEnd(question, p + 2)]
  {
    match FindSn(question, 0)
    case None => None
    case Some(p) =>
      var e := DigitsEnd(question, p + 2);
      var m := Upper(question[p..e]);
      assert m == "SN" + question[p + 2..e];
      assert LeftmostSn(question, p);
      Some(m)
  }

  /** The pattern `SN\d+` without IGNORECASE matches at index `i`. */
  predicate ExactSnAt(s: string, i: int) {
    0 <= i && i + 2 < |s| && s[i] == 'S' && s[i + 1] == 'N' && IsDigit(s[i + 2])
  }

  function FindExactSn(s: string, from: nat): (p: Option<nat>)
    requires from <= |s|
    ensures p.Some? ==> from <= p.value && ExactSnAt(s, p.value)
    decreases |s| - from
  {
    if from == |s| then None
    else if ExactSnAt(s, from) then Some(from)
    else FindExactSn(s, from + 1)
  }

  /** The `query_order` node's variant: `re.search(r'SN\d+', question.upper())`. */
  function ExtractOrderSnOfUpper(question: string): Option<string> {
    var u := Upper(question);
    match FindExactSn(u, 0)
    case None => None
    case Some(p) => Some(u[p..DigitsEnd(u, p + 2)])
  }

  lemma {:induction false} FindExactSnOfUpper(s: string, from: nat)
    requires from <= |s|
    ensures FindExactSn(Upper(s), from) == FindSn(s, from)
    decreases |s| - from
  {
    var u := Upper(s);
    if from < |s| {
      assert ExactSnAt(u, from) <==> SnAt(s, from);
      FindExactSnOfUpper(s, from + 1);
    }
  }

  lemma {:induction false} DigitsEndOfUpper(s: string, from: nat)
    requires from <= |s|
    ensures DigitsEnd(Upper(s), from) == DigitsEnd(s, from)
    decreases |s| - from
  {
    if from < |s| {
      DigitsEndOfUpper(s, from + 1);
    }
  }

  /** The intake node and the order-query node extract the same order number from
      every question (ASCII case folding). */
  lemma ExtractionVariantsAgree(question: string)
    ensures ExtractOrderSnOfUpper(question) == ExtractOrderSn(question)
  {
    FindExactSnOfUpper(question, 0);
    match FindSn(question, 0)
    case None =>
    case Some(p) =>
      DigitsEndOfUpper(question, p + 2);
      var e := DigitsEnd(question, p + 2);
      assert Upper(question)[p..e] == Upper(question[p..e]);
  }

  // ---------------------------------------------------------------------------
  // Reason classification
  // ---------------------------------------------------------------------------

  const QualityWords: seq<string> := ["质量", "破损"]
  const SizeWords: seq<string> := ["尺码", "大小", "不合适"]
  const MismatchWords: seq<string> := ["不符", "描述"]

  /** The reason category of a refund question; the first matching group wins. */
  function ClassifyReason(question: string): (r: RefundReason)
    ensures r == QualityIssue <==> ContainsAny(question, QualityWords)
    ensures r == SizeNotFit <==>
              !ContainsAny(question, QualityWords) && ContainsAny(question, SizeWords)
    ensures r == NotAsDescribed <==>
              !ContainsAny(question, QualityWords) && !ContainsAny(question, SizeWords) &&
              ContainsAny(question, MismatchWords)
    ensures r != ChangedMind
  {
    assert ContainsAny(question, QualityWords) <==>
           Contains(question, QualityWords[0]) || Contains(question, QualityWords[1]);
    assert ContainsAny(question, SizeWords) <==>
           Contains(question, SizeWords[0]) || Contains(question, SizeWords[1]) ||
           Contains(question, SizeWords[2]);
    assert ContainsAny(question, MismatchWords) <==>
           Contains(question, MismatchWords[0]) || Contains(question, MismatchWords[1]);
    if Contains(question, "质量") || Contains(question, "破损") then QualityIssue
    else if Contains(question, "尺码") || Contains(question, "大小") || Contains(question, "不合适") then SizeNotFit
    else if Contains(question, "不符") || Contains(question, "描述") then NotAsDescribed
    else Other
  }

  // ---------------------------------------------------------------------------
  // handle_refund
  // ---------------------------------------------------------------------------

  /** The word that marks an item as underwear, which the intake refuses. */
  const Underwear: string := "内衣"

  /** Order statuses from which the intake accepts a refund. */
  predicate IntakeAcceptsStatus(s: OrderStatus) {
    s == Paid || s == Shipped || s == Delivered
  }

  /** An item counts as underwear when its name (missing names read as "") contains
      the underwear word. */
  predicate IsUnderwear(item: Item) {
    Contains(item.name.GetOr(""), Underwear)
  }

  /** The names of the order's underwear items, in order. */
  function UnderwearNames(items: seq<Item>): (names: seq<string>)
    ensures |names| == 0 <==> forall i :: 0 <= i < |items| ==> !IsUnderwear(items[i])
    ensures forall k :: 0 <= k < |names| ==> Contains(names[k], Underwear)
    decreases |items|
  {
    if |items| == 0 then []
    else
      var rest := UnderwearNames(items[1..]);
      assert forall i :: 1 <= i < |items| ==> items[i] == items[1..][i - 1];
      if IsUnderwear(items[0]) then [items[0].name.GetOr("")] + rest else rest
  }

  /** The order with this number that belongs to this user. */
  function FindOrder(orders: seq<Order>, orderSn: string, userId: int): Option<nat> {
    FirstWhere(orders, (o: Order) => o.orderSn == orderSn && o.userId == userId)
  }

  datatype IntakeAnswer =
    | AskForOrderSn
    | OrderNotFound(orderSn: string)
    | StatusNotRefundable(orderSn: string, status: OrderStatus)
    | NonReturnableItems(names: seq<string>)
    | RefundCreated

  /** The node's state update: the answer, `refund_flow_active` (set to false on
      every refusal, absent otherwise), `refund_data` and `order_data`. */
  datatype IntakeOutcome = IntakeOutcome(
    answer: IntakeAnswer,
    refundFlowActive: Option<bool>,
    refundData: Option<RefundData>,
    orderData: Option<Order>)

  /** Only the refund table may change, and only by appending. */
  predicate OnlyRefundsGrow(db: Db, db': Db) {
    && db'.orders == db.orders && db'.audits == db.audits && db'.cards == db.cards
    && db'.jobs == db.jobs && db'.pushes == db.pushes
    && |db.refunds| <= |db'.refunds| && db'.refunds[..|db.refunds|] == db.refunds
  }

  /** `handle_refund`: extract the order number, look the order up for this user,
      refuse non-refundable statuses and underwear, and otherwise write one PENDING
      refund for the order's full amount. */
  function HandleRefund(db: Db, question: string, userId: int, now: int): (r: (Db, IntakeOutcome))
    ensures OnlyRefundsGrow(db, r.0)
    ensures r.1.answer.RefundCreated? <==> r.1.refundData.Some?
    ensures r.1.answer.RefundCreated? ==> |r.0.refunds| == |db.refunds| + 1
    ensures !r.1.answer.RefundCreated? ==> r.0 == db && r.1.refundFlowActive == Some(false)
    // the refusals, in the order they are checked
    ensures r.1.answer == AskForOrderSn <==> ExtractOrderSn(question).None?
    ensures r.1.answer.OrderNotFound? <==>
              ExtractOrderSn(question).Some? &&
              FindOrder(db.orders, ExtractOrderSn(question).value, userId).None?
    ensures !r.1.answer.AskForOrderSn? && !r.1.answer.OrderNotFound? ==>
              var sn := ExtractOrderSn(question).value;
              var oid := FindOrder(db.orders, sn, userId).value;
              var order := db.orders[oid - 1];
              && order.orderSn == sn && order.userId == userId
              && (r.1.answer.StatusNotRefundable? <==> !IntakeAcceptsStatus(order.status))
              && (r.1.answer.NonReturnableItems? <==>
                    IntakeAcceptsStatus(order.status) &&
                    exists i :: 0 <= i < |order.items| && IsUnderwear(order.items[i]))
              && (r.1.answer.RefundCreated? ==>
                    var rid := |r.0.refunds|;
                    var refund := r.0.refunds[rid - 1];
                    && refund.orderId == oid && refund.userId == userId
                    && refund.status == RefundPending
                    && refund.refundAmount == order.totalAmount
                    && refund.reasonDetail == question
                    && refund.reasonCategory == Some(ClassifyReason(question))
                    && refund.createdAt == now
                    && RefundUnreviewedWhilePending(refund)
                    && r.1.refundData == Some(RefundData(rid, oid, sn, order.totalAmount, question, ClassifyReason(question)))
                    && r.1.orderData == Some(order))
  {
    match ExtractOrderSn(question)
    case None => (db, IntakeOutcome(AskForOrderSn, Some(false), None, None))
    case Some(sn) =>
      match FindOrder(db.orders, sn, userId)
      case None => (db, IntakeOutcome(OrderNotFound(sn), Some(false), None, None))
      case Some(oid) =>
        var order := db.orders[oid - 1];
        if !IntakeAcceptsStatus(order.status) then
          (db, IntakeOutcome(StatusNotRefundable(sn, order.status), Some(false), None, None))
        else
          var bad := UnderwearNames(order.items);
          if |bad| > 0 then
            (db, IntakeOutcome(NonReturnableItems(bad), Some(false), None, None))
          else
            var category := ClassifyReason(question);
            var refund := Refund(oid, userId, RefundPending, Some(category), question,
                                 order.totalAmount, None, None, None, now);
            var db' := db.(refunds := db.refunds + [refund]);
            assert db'.refunds[..|db.refunds|] == db.refunds;
            var data := RefundData(|db'.refunds|, oid, sn, order.totalAmount, question, category);
            (db', IntakeOutcome(RefundCreated, None, Some(data), Some(order)))
  }
}

=== FILE: models.dfy ===
/** The persistent records of the refund pipeline (the files under app/models) and the in-memory
    database the operations transform.

    Every table is a sequence in insertion order. Rows carry no id field: the row at
    position `i` has the serial primary key `i + 1`, and no operation deletes rows.
    Money is in integer cents and time in integer seconds. */
module Models {
  import opened Wrappers

  datatype OrderStatus = OrderPending | Paid | Shipped | Delivered | OrderCancelled {
    function Name(): string {
      match this
      case OrderPending => "PENDING"
      case Paid => "PAID"
      case Shipped => "SHIPPED"
      case Delivered => "DELIVERED"
      case OrderCancelled => "CANCELLED"
    }
  }

  /** The four risk tiers; CRITICAL exists in the schema but no writer produces it. */
  datatype RiskLevel = Low | Medium | High | Critical {
    function Name(): string {
      match this
      case Low => "LOW"
      case Medium => "MEDIUM"
      case High => "HIGH"
      case Critical => "CRITICAL"
    }
  }

  /** The review state of an audit record; ESCALATE exists in the schema but no
      writer sets it. */
  datatype AuditAction = Approve | Reject | Escalate | Pending

  datatype RefundStatus = RefundPending | RefundApproved | RefundRejected | RefundCompleted | RefundCancelled

  datatype RefundReason = QualityIssue | SizeNotFit | NotAsDescribed | ChangedMind | Other

  /** One line of an order's `items` JSON; a missing "name" key is `None`. */
  datatype Item = Item(name: Option<string>, qty: int)

  datatype Order = Order(
    orderSn: string,
    userId: int,
    status: OrderStatus,
    totalAmount: int,
    items: seq<Item>,
    createdAt: int)

  datatype Refund = Refund(
    orderId: nat,
    userId: int,
    status: RefundStatus,
    reasonCategory: Option<RefundReason>,
    reasonDetail: string,
    refundAmount: int,
    adminNote: Option<string>,
    reviewedBy: Option<int>,
    reviewedAt: Option<int>,
    createdAt: int)

  /** What the intake node hands to the risk gate (the `refund_data` dict). */
  datatype RefundData = RefundData(
    refundId: nat,
    orderId: nat,
    orderSn: string,
    amount: int,
    reason: string,
    category: RefundReason)

  /** Why a refund was escalated: its tier, its amount and the threshold it reached.
      The source renders these into a sentence; the rendering is not modelled. */
  datatype Trigger = Trigger(level: RiskLevel, amount: int, threshold: int)

  /** The write-once context captured when a refund is escalated. */
  datatype Snapshot = Snapshot(
    question: string,
    refundData: RefundData,
    orderData: Option<Order>,
    history: seq<string>)

  datatype AuditLog = AuditLog(
    threadId: string,
    orderId: Option<nat>,
    refundId: Option<nat>,
    userId: int,
    trigger: Trigger,
    risk: RiskLevel,
    action: AuditAction,
    adminId: Option<int>,
    adminComment: Option<string>,
    snapshot: Snapshot,
    createdAt: int,
    reviewedAt: Option<int>)

  /** The customer-facing sentence of a decision: approval, or rejection quoting the
      reviewer's comment (which may be absent). */
  datatype DecisionMessage = ApprovedNotice | RejectedNotice(comment: Option<string>)

  datatype MessageType = TextMessage | AuditCard | OrderCard | RefundCard | SystemMessage

  datatype MessageStatus = MessagePending | Sent | Read | MessageFailed

  datatype CardContent = AuditResult(action: string, message: DecisionMessage, adminComment: Option<string>)

  datatype MessageCard = MessageCard(
    threadId: string,
    messageType: MessageType,
    status: MessageStatus,
    content: CardContent,
    senderType: string,
    senderId: Option<int>,
    receiverId: Option<int>)

  /** A background job handed to the task queue; only its enqueueing is modelled. */
  datatype Job =
    | NotifyAdminAudit(auditLogId: nat)
    | ProcessRefundPayment(refundId: nat, amount: int, paymentMethod: string)
    | SendRefundSms(refundId: nat, phone: string, amount: int)

  /** The payload of a status push. */
  datatype PushData =
    | WaitingAdminData(risk: RiskLevel, trigger: Trigger, auditLogId: nat, refundAmount: int)
    | DecisionData(message: DecisionMessage, adminComment: Option<string>)

  /** One call of the connection manager's `notify_status_change`. */
  datatype Push = Push(threadId: string, status: string, data: PushData)

  datatype Db = Db(
    orders: seq<Order>,
    refunds: seq<Refund>,
    audits: seq<AuditLog>,
    cards: seq<MessageCard>,
    jobs: seq<Job>,
    pushes: seq<Push>)

  /** The row with primary key `id`, if the table has one. */
  function Row<T>(t: seq<T>, id: int): (r: Option<T>)
    ensures r.Some? <==> 1 <= id <= |t|
    ensures r.Some? ==> r.value == t[id - 1]
  {
    if 1 <= id <= |t| then Some(t[id - 1]) else None
  }

  /** The primary key of the first row satisfying `p` (a `WHERE` lookup). */
  function FirstWhere<T>(t: seq<T>, p: T -> bool): (id: Option<nat>)
    ensures id.Some? ==> 1 <= id.value <= |t| && p(t[id.value - 1])
    ensures id.Some? ==> forall i :: 0 <= i < id.value - 1 ==> !p(t[i])
    ensures id.None? <==> forall i :: 0 <= i < |t| ==> !p(t[i])
    decreases |t|
  {
    if |t| == 0 then None
    else if p(t[0]) then Some(1)
    else
      var rest := FirstWhere(t[1..], p);
      assert forall i :: 1 <= i < |t| ==> t[i] == t[1..][i - 1];
      if rest.None? then None else Some(rest.value + 1)
  }

  /** The payment method the reviewer path passes to the payment job. */
  const OriginalPaymentMethod: string := "原支付方式"

  /** The placeholder phone number the reviewer path passes to the SMS job. */
  const PlaceholderPhone: string := "138****1234"

  /** The two jobs an approval enqueues for a refund: payment, then SMS. */
  function ApprovalJobs(refundId: nat, amount: int): (jobs: seq<Job>)
    ensures PaymentEnqueued(jobs, refundId)
  {
    var jobs := [ProcessRefundPayment(refundId, amount, OriginalPaymentMethod),
                 SendRefundSms(refundId, PlaceholderPhone, amount)];
    assert jobs[0].ProcessRefundPayment?;
    jobs
  }

  /** An HTTP error response: status code and detail text. */
  datatype ApiError = ApiError(code: int, detail: string)

  /** An audit that no reviewer has touched: PENDING, with no reviewer, comment or
      review time. */
  predicate Undecided(a: AuditLog) {
    a.action == Pending && a.adminId.None? && a.adminComment.None? && a.reviewedAt.None?
  }

  /** An audit carrying a reviewer's verdict, the reviewer and the review time. */
  predicate Decided(a: AuditLog) {
    (a.action == Approve || a.action == Reject) && a.adminId.Some? && a.reviewedAt.Some?
  }

  /** A refund that is still PENDING has not been reviewed. */
  predicate RefundUnreviewedWhilePending(r: Refund) {
    r.status == RefundPending ==> r.adminNote.None? && r.reviewedBy.None? && r.reviewedAt.None?
  }

  /** Some payment job was enqueued for the refund with this id. */
  predicate PaymentEnqueued(jobs: seq<Job>, refundId: nat) {
    exists k :: 0 <= k < |jobs| && jobs[k].ProcessRefundPayment? && jobs[k].refundId == refundId
  }
}

=== FILE: pipeline.dfy ===
/** The refund pipeline end to end: one chat turn through the conversation graph, the
    ledger invariant every operation keeps, and what the customer's status poll reads
    after an escalation, a decision or an auto-approval. The turn uses the corrected
    risk gate. */
module Pipeline {
  import opened Wrappers
  import opened Models
  import Intake
  import RiskGate
  import Admin
  import ThreadStatus
  import RefundService
  import Workflow

  // ---------------------------------------------------------------------------
  // The ledger invariant
  // ---------------------------------------------------------------------------

  /** An audit is either untouched or carries a verdict, and only the two escalated
      tiers are ever audited. */
  predicate AuditWellFormed(a: AuditLog) {
    (Undecided(a) || Decided(a)) && (a.risk == Medium || a.risk == High)
  }

  /** The ledger invariant: audits are well formed, a PENDING refund is unreviewed,
      and every APPROVED refund has a payment job. */
  predicate Valid(db: Db) {
    && (forall i :: 0 <= i < |db.audits| ==> AuditWellFormed(db.audits[i]))
    && (forall i :: 0 <= i < |db.refunds| ==> RefundUnreviewedWhilePending(db.refunds[i]))
    && (forall i :: 0 <= i < |db.refunds| && db.refunds[i].status == RefundApproved ==>
          PaymentEnqueued(db.jobs, i + 1))
  }

  /** How the database may change in one step: orders stay, refunds, audits and jobs
      only grow, and a decided audit is never touched again. */
  predicate Evolves(db: Db, db': Db) {
    && db'.orders == db.orders
    && |db.refunds| <= |db'.refunds|
    && |db.audits| <= |db'.audits|
    && (forall i :: 0 <= i < |db.audits| && Decided(db.audits[i]) ==> db'.audits[i] == db.audits[i])
    && |db.jobs| <= |db'.jobs| && db'.jobs[..|db.jobs|] == db.jobs
  }

  lemma EvolvesTransitive(a: Db, b: Db, c: Db)
    requires Evolves(a, b) && Evolves(b, c)
    ensures Evolves(a, c)
  {
    assert c.jobs[..|a.jobs|] == c.jobs[..|b.jobs|][..|a.jobs|];
  }

  lemma PaymentsSurvive(jobs: seq<Job>, jobs': seq<Job>, refundId: nat)
    requires |jobs| <= |jobs'| && jobs'[..|jobs|] == jobs
    requires PaymentEnqueued(jobs, refundId)
    ensures PaymentEnqueued(jobs', refundId)
  {
    var k :| 0 <= k < |jobs| && jobs[k].ProcessRefundPayment? && jobs[k].refundId == refundId;
    assert jobs'[k] == jobs[k];
  }

  /** Refunds that are only appended, all new ones PENDING and unreviewed, with the
      jobs only growing, keep the refund half of the invariant. */
  lemma NewPendingRefundsKeepValid(db: Db, db': Db)
    requires Valid(db)
    requires db'.audits == db.audits
    requires |db.refunds| <= |db'.refunds| && db'.refunds[..|db.refunds|] == db.refunds
    requires forall i :: |db.refunds| <= i < |db'.refunds| ==>
               db'.refunds[i].status == RefundPending && RefundUnreviewedWhilePending(db'.refunds[i])
    requires |db.jobs| <= |db'.jobs| && db'.jobs[..|db.jobs|] == db.jobs
    ensures Valid(db')
  {
    forall i | 0 <= i < |db'.refunds| && db'.refunds[i].status == RefundApproved
      ensures PaymentEnqueued(db'.jobs, i + 1)
    {
      assert i < |db.refunds|;
      assert db'.refunds[i] == db.refunds[i];
      PaymentsSurvive(db.jobs, db'.jobs, i + 1);
    }
    forall i | 0 <= i < |db'.refunds| ensures RefundUnreviewedWhilePending(db'.refunds[i]) {
      if i < |db.refunds| { assert db'.refunds[i] == db.refunds[i]; }
    }
  }

  lemma HandleRefundKeepsValid(db: Db, question: string, userId: int, now: int)
    requires Valid(db)
    ensures var db' := Intake.HandleRefund(db, question, userId, now).0;
            Valid(db') && Evolves(db, db')
  {
    var (db', out) := Intake.HandleRefund(db, question, userId, now);
    if out.answer.RefundCreated? {
      NewPendingRefundsKeepValid(db, db');
    }
  }

  lemma CreateApplicationKeepsValid(db: Db, orderId: int, userId: int, detail: string,
                                    category: Option<RefundReason>, now: int, commitOk: bool)
    requires Valid(db)
    ensures var db' := RefundService.CreateRefundApplication(db, orderId, userId, detail, category, now, commitOk).0;
            Valid(db') && Evolves(db, db')
  {
    var (db', r) := RefundService.CreateRefundApplication(db, orderId, userId, detail, category, now, commitOk);
    if r.Success? {
      assert db'.refunds[..|db.refunds|] == db.refunds;
      NewPendingRefundsKeepValid(db, db');
    }
  }

  /** The corrected gate keeps the invariant; in particular an auto-approved refund
      has its payment job. */
  lemma GateKeepsValid(db: Db, st: RiskGate.TurnState, th: RiskGate.Thresholds, now: int, notifyJobOk: bool, pushOk: bool)
    requires Valid(db)
    ensures var db' := RiskGate.CheckRefundEligibilityCorrected(db, st, th, now, notifyJobOk, pushOk).0;
            Valid(db') && Evolves(db, db')
  {
    var (db', res) := RiskGate.CheckRefundEligibilityCorrected(db, st, th, now, notifyJobOk, pushOk);
    var (db1, _) := RiskGate.CheckRefundEligibility(db, st, th, now, notifyJobOk, pushOk);
    if st.refundData.Some? {
      var data := st.refundData.value;
      if res.auditRequired {
        var a := RiskGate.NewAudit(st, data, th, now);
        assert db'.audits == db.audits + [a];
        forall i | 0 <= i < |db'.audits| ensures AuditWellFormed(db'.audits[i]) {
          if i < |db.audits| { assert db'.audits[i] == db.audits[i]; }
        }
        forall i | 0 <= i < |db'.refunds| && db'.refunds[i].status == RefundApproved
          ensures PaymentEnqueued(db'.jobs, i + 1)
        {
          PaymentsSurvive(db.jobs, db'.jobs, i + 1);
        }
      } else {
        assert db'.audits == db.audits;
        assert RiskGate.AutoApprovedTable(db.refunds, db'.refunds, data.refundId, now);
        forall i | 0 <= i < |db'.refunds| && db'.refunds[i].status == RefundApproved
          ensures PaymentEnqueued(db'.jobs, i + 1)
        {
          if db.refunds[i].status == RefundApproved {
            PaymentsSurvive(db.jobs, db'.jobs, i + 1);
          }
        }
        forall i | 0 <= i < |db'.refunds| ensures RefundUnreviewedWhilePending(db'.refunds[i]) {
          if i != data.refundId - 1 { assert db'.refunds[i] == db.refunds[i]; }
        }
      }
    }
  }

  /** A reviewer's decision keeps the invariant and touches no other decided audit. */
  lemma DecisionKeepsValid(db: Db, auditLogId: int, action: string, comment: Option<string>, adminId: int, now: int)
    requires Valid(db)
    ensures var r := Admin.AdminDecision(db, auditLogId, action, comment, adminId, now);
            r.Success? ==> Valid(r.value.0) && Evolves(db, r.value.0)
  {
    var r := Admin.AdminDecision(db, auditLogId, action, comment, adminId, now);
    if r.Success? {
      var db' := r.value.0;
      var a := db.audits[auditLogId - 1];
      var link := Admin.LinkedRefund(db.refunds, a);
      forall i | 0 <= i < |db'.audits| ensures AuditWellFormed(db'.audits[i]) {
        if i != auditLogId - 1 {
          assert db'.audits[i] == db.audits[i];
        } else {
          assert AuditWellFormed(a);
        }
      }
      forall i | 0 <= i < |db'.refunds| && db'.refunds[i].status == RefundApproved
        ensures PaymentEnqueued(db'.jobs, i + 1)
      {
        if link.Some? && i == link.value - 1 {
          assert Admin.ParseVerdict(action) == Approve;
          assert db'.jobs == db.jobs + ApprovalJobs(link.value, db.refunds[link.value - 1].refundAmount);
          var k := |db.jobs|;
          assert db'.jobs[k] == ProcessRefundPayment(link.value, db.refunds[link.value - 1].refundAmount, OriginalPaymentMethod);
        } else {
          assert db'.refunds[i] == db.refunds[i];
          assert db'.jobs[..|db.jobs|] == db.jobs;
          PaymentsSurvive(db.jobs, db'.jobs, i + 1);
        }
      }
      forall i | 0 <= i < |db'.refunds| ensures RefundUnreviewedWhilePending(db'.refunds[i]) {
        if !(link.Some? && i == link.value - 1) { assert db'.refunds[i] == db.refunds[i]; }
      }
      assert db'.jobs[..|db.jobs|] == db.jobs;
    }
  }

  /** The gate as written breaks the invariant: an auto-approved refund without a
      payment job. */
  lemma AsWrittenGateBreaksValid()
    ensures var order := Order("SN1", 7, Delivered, 10000, [], 0);
            var refund := Refund(1, 7, RefundPending, Some(Other), "SN1", 10000, None, None, None, 0);
            var db := Db([order], [refund], [], [], [], []);
            var data := RefundData(1, 1, "SN1", 10000, "SN1", Other);
            var st := RiskGate.TurnState("SN1", 7, "7_t", [], Some(order), Some(data));
            && Valid(db)
            && !Valid(RiskGate.CheckRefundEligibility(db, st, RiskGate.DefaultThresholds, 1, true, true).0)
  {
    RiskGate.AutoApprovalEnqueuesNoPayment();
  }

  // ---------------------------------------------------------------------------
  // Any sequence of operations
  // ---------------------------------------------------------------------------

  /** One write operation of the pipeline, with its inputs. `GateOp` runs the
      corrected gate. */
  datatype Op =
    | IntakeOp(question: string, userId: int, now: int)
    | GateOp(st: RiskGate.TurnState, th: RiskGate.Thresholds, now: int, notifyJobOk: bool, pushOk: bool)
    | DecideOp(auditLogId: int, action: string, comment: Option<string>, adminId: int, now: int)
    | ApplyOp(orderId: int, userId: int, detail: string, category: Option<RefundReason>, now: int, commitOk: bool)

  /** The database after one operation; a refused decision changes nothing. */
  function Apply(db: Db, op: Op): Db {
    match op
    case IntakeOp(q, u, now) => Intake.HandleRefund(db, q, u, now).0
    case GateOp(st, th, now, j, p) => RiskGate.CheckRefundEligibilityCorrected(db, st, th, now, j, p).0
    case DecideOp(id, action, comment, admin, now) =>
      var r := Admin.AdminDecision(db, id, action, comment, admin, now);
      if r.Success? then r.value.0 else db
    case ApplyOp(o, u, d, c, now, ok) => RefundService.CreateRefundApplication(db, o, u, d, c, now, ok).0
  }

  function ApplyAll(db: Db, ops: seq<Op>): Db
    decreases |ops|
  {
    if |ops| == 0 then db else ApplyAll(Apply(db, ops[0]), ops[1..])
  }

  lemma ApplyKeepsValid(db: Db, op: Op)
    requires Valid(db)
    ensures Valid(Apply(db, op)) && Evolves(db, Apply(db, op))
  {
    match op
    case IntakeOp(q, u, now) => HandleRefundKeepsValid(db, q, u, now);
    case GateOp(st, th, now, j, p) => GateKeepsValid(db, st, th, now, j, p);
    case DecideOp(id, action, comment, admin, now) =>
      DecisionKeepsValid(db, id, action, comment, admin, now);
    case ApplyOp(o, u, d, c, now, ok) => CreateApplicationKeepsValid(db, o, u, d, c, now, ok);
  }

  /** Whatever operations run, in whatever order, the invariant holds throughout, a
      decided audit keeps its verdict, and no enqueued job is lost. */
  lemma {:induction false} LedgerInvariant(db: Db, ops: seq<Op>)
    requires Valid(db)
    ensures Valid(ApplyAll(db, ops)) && Evolves(db, ApplyAll(db, ops))
    decreases |ops|
  {
    if |ops| == 0 {
      assert db.jobs[..|db.jobs|] == db.jobs;
    } else {
      var next := Apply(db, ops[0]);
      ApplyKeepsValid(db, ops[0]);
      LedgerInvariant(next, ops[1..]);
      EvolvesTransitive(db, next, ApplyAll(next, ops[1..]));
    }
  }

  // ---------------------------------------------------------------------------
  // One chat turn
  // ---------------------------------------------------------------------------

  datatype TurnResult = TurnResult(
    path: seq<Workflow.Node>,
    intake: Option<Intake.IntakeOutcome>,
    gate: Option<RiskGate.GateResult>)

  /** One turn of the graph, with the gate in its corrected form (the as-written gate
      breaks `Valid`, see `AsWrittenGateBreaksValid`). `rawIntent` is the language
      model's classification; the nodes outside the refund path write nothing this
      model tracks. */
  function ChatTurn(db: Db, question: string, userId: int, threadId: string, history: seq<string>,
                    rawIntent: string, th: RiskGate.Thresholds, now: int, notifyJobOk: bool, pushOk: bool): (r: (Db, TurnResult))
    ensures Workflow.IsPath(r.1.path) && r.1.path[0] == Workflow.Start && r.1.path[|r.1.path| - 1] == Workflow.End
    ensures Intake.NormaliseIntent(rawIntent) != "REFUND" ==> r.0 == db && r.1.intake.None? && r.1.gate.None?
    ensures Intake.NormaliseIntent(rawIntent) == "REFUND" ==>
              && r.1.intake.Some? && r.1.gate.Some?
              && Workflow.CheckRefundEligibility in r.1.path
              && (Workflow.Generate !in r.1.path <==> r.1.gate.value.auditRequired)
    ensures Valid(db) ==> Valid(r.0) && Evolves(db, r.0)
  {
    var tag := Intake.NormaliseIntent(rawIntent);
    if tag != "REFUND" then
      (db, TurnResult(Workflow.Run(Some(tag), None), None, None))
    else
      var (db1, out) := Intake.HandleRefund(db, question, userId, now);
      var st := RiskGate.TurnState(question, userId, threadId, history, out.orderData, out.refundData);
      var (db2, g) := RiskGate.CheckRefundEligibilityCorrected(db1, st, th, now, notifyJobOk, pushOk);
      assert Valid(db) ==> Valid(db2) && Evolves(db, db2) by {
        if Valid(db) {
          HandleRefundKeepsValid(db, question, userId, now);
          GateKeepsValid(db1, st, th, now, notifyJobOk, pushOk);
          EvolvesTransitive(db, db1, db2);
        }
      }
      (db2, TurnResult(Workflow.Run(Some(tag), Some(g.auditRequired)), Some(out), Some(g)))
  }

  /** The turn as the graph most likely runs it: the graph state type declares no
      `refund_data` key, so the intake's `refund_data` update is dropped and the gate
      reads none. */
  function ChatTurnAsWritten(db: Db, question: string, userId: int, threadId: string, history: seq<string>,
                             rawIntent: string, th: RiskGate.Thresholds, now: int, notifyJobOk: bool,
                             pushOk: bool): (r: (Db, TurnResult))
    ensures Workflow.IsPath(r.1.path) && r.1.path[0] == Workflow.Start && r.1.path[|r.1.path| - 1] == Workflow.End
    ensures Intake.NormaliseIntent(rawIntent) != "REFUND" ==> r.0 == db && r.1.intake.None? && r.1.gate.None?
    ensures Intake.NormaliseIntent(rawIntent) == "REFUND" ==>
              && r.1.intake.Some? && r.1.gate.Some?
              && r.0 == Intake.HandleRefund(db, question, userId, now).0
              && !r.1.gate.value.auditRequired && r.1.gate.value.auditLogId.None?
              && Workflow.Generate in r.1.path
  {
    var tag := Intake.NormaliseIntent(rawIntent);
    if tag != "REFUND" then
      (db, TurnResult(Workflow.Run(Some(tag), None), None, None))
    else
      var (db1, out) := Intake.HandleRefund(db, question, userId, now);
      var st := RiskGate.TurnState(question, userId, threadId, history, out.orderData, None);
      var (db2, g) := RiskGate.CheckRefundEligibility(db1, st, th, now, notifyJobOk, pushOk);
      (db2, TurnResult(Workflow.Run(Some(tag), Some(g.auditRequired)), Some(out), Some(g)))
  }

  /** With the key dropped, a refund the intake writes is stranded: the turn writes no
      audit, enqueues nothing, pushes nothing and answers through generate, and the
      refund stays PENDING; the turn that does hand the data on either escalates or
      approves it. */
  lemma DroppedRefundDataStrandsRefund(db: Db, question: string, userId: int, threadId: string, history: seq<string>,
                                       rawIntent: string, th: RiskGate.Thresholds, now: int, notifyJobOk: bool, pushOk: bool)
    requires Intake.NormaliseIntent(rawIntent) == "REFUND"
    requires Intake.HandleRefund(db, question, userId, now).1.answer.RefundCreated?
    ensures var (db', t) := ChatTurnAsWritten(db, question, userId, threadId, history, rawIntent, th, now, notifyJobOk, pushOk);
            && |db'.refunds| == |db.refunds| + 1
            && db'.refunds[|db.refunds|].status == RefundPending
            && db'.audits == db.audits && db'.jobs == db.jobs && db'.pushes == db.pushes
            && Workflow.Generate in t.path
    ensures var (db', t) := ChatTurn(db, question, userId, threadId, history, rawIntent, th, now, notifyJobOk, pushOk);
            |db'.audits| == |db.audits| + 1 || db'.refunds[|db.refunds|].status == RefundApproved
  {
    var (db1, out) := Intake.HandleRefund(db, question, userId, now);
    assert db1.refunds[|db.refunds|] == db1.refunds[|db1.refunds| - 1];
    var st := RiskGate.TurnState(question, userId, threadId, history, out.orderData, out.refundData);
    var (db2, g) := RiskGate.CheckRefundEligibilityCorrected(db1, st, th, now, notifyJobOk, pushOk);
    if g.answer.AutoApproved? {
      AutoApprovedRefundIsApproved(db1, st, th, now, notifyJobOk, pushOk);
    }
  }

  /** The turn as the chat endpoint starts it, assuming the refund data does reach the
      gate: the initial state carries no thread id and an empty history, and the gate
      runs as written. A failure is the exception that ends the stream with an error
      frame. */
  function ChatTurnAsRun(db: Db, question: string, userId: int, rawIntent: string, th: RiskGate.Thresholds,
                         now: int, notifyJobOk: bool, pushOk: bool): (r: (Db, Result<TurnResult, RiskGate.GateFault>))
    ensures Intake.NormaliseIntent(rawIntent) != "REFUND" ==> r.0 == db && r.1.Success?
    ensures Intake.NormaliseIntent(rawIntent) == "REFUND" && r.1.Failure? ==>
              r.0 == Intake.HandleRefund(db, question, userId, now).0
    // no turn on this path ever reaches review
    ensures r.1.Success? && r.1.value.gate.Some? ==> !r.1.value.gate.value.auditRequired
    ensures r.1.Success? ==> r.0.audits == db.audits
  {
    var tag := Intake.NormaliseIntent(rawIntent);
    if tag != "REFUND" then
      (db, Success(TurnResult(Workflow.Run(Some(tag), None), None, None)))
    else
      var (db1, out) := Intake.HandleRefund(db, question, userId, now);
      var gs := RiskGate.GraphState(question, userId, None, [], out.orderData, out.refundData);
      var (db2, g) := RiskGate.CheckRefundEligibilityAsRun(db1, gs, th, now, notifyJobOk, pushOk);
      if g.Failure? then (db2, Failure(g.error))
      else (db2, Success(TurnResult(Workflow.Run(Some(tag), Some(g.value.auditRequired)), Some(out), Some(g.value))))
  }

  /** On the chat path every escalation raises for the missing thread id: the refund
      the intake wrote stays PENDING with no audit, job or push, whereas the turn that
      carries the client's thread id writes the PENDING audit. */
  lemma EscalationRaisesOnChatPath(db: Db, question: string, userId: int, threadId: string, history: seq<string>,
                                   rawIntent: string, th: RiskGate.Thresholds, now: int, notifyJobOk: bool, pushOk: bool)
    requires Intake.NormaliseIntent(rawIntent) == "REFUND"
    requires Intake.HandleRefund(db, question, userId, now).1.refundData.Some?
    requires RiskGate.Classify(Intake.HandleRefund(db, question, userId, now).1.refundData.value.amount, th) != Low
    ensures var (db', t) := ChatTurnAsRun(db, question, userId, rawIntent, th, now, notifyJobOk, pushOk);
            && t == Failure(RiskGate.MissingThreadId)
            && |db'.refunds| == |db.refunds| + 1 && db'.refunds[|db.refunds|].status == RefundPending
            && db'.audits == db.audits && db'.jobs == db.jobs && db'.pushes == db.pushes
    ensures var (db', t) := ChatTurn(db, question, userId, threadId, history, rawIntent, th, now, notifyJobOk, pushOk);
            && |db'.audits| == |db.audits| + 1 && db'.audits[|db.audits|].action == Pending
            && db'.audits[|db.audits|].threadId == threadId
  {
    var (db1, out) := Intake.HandleRefund(db, question, userId, now);
    assert db1.refunds[|db.refunds|] == db1.refunds[|db1.refunds| - 1];
  }

  // ---------------------------------------------------------------------------
  // What the status poll reads
  // ---------------------------------------------------------------------------

  /** The clock never runs backwards: no audit of the thread is newer than `now`. */
  predicate NotInFuture(db: Db, threadId: string, userId: int, now: int) {
    forall i :: 0 <= i < |db.audits| && ThreadStatus.OfThread(db.audits[i], threadId, userId) ==>
      db.audits[i].createdAt <= now
  }

  /** An audit appended at the current time is the newest of its thread. */
  lemma AppendedAuditIsNewest(audits: seq<AuditLog>, a: AuditLog, threadId: string, userId: int)
    requires ThreadStatus.OfThread(a, threadId, userId)
    requires forall i :: 0 <= i < |audits| && ThreadStatus.OfThread(audits[i], threadId, userId) ==>
               audits[i].createdAt <= a.createdAt
    ensures ThreadStatus.NewestAudit(audits + [a], threadId, userId) == Some(|audits| + 1)
  {
    var s := audits + [a];
    ThreadStatus.NewestInPrefix(audits, [a], threadId, userId, |audits|);
    var best := ThreadStatus.NewestIn(s, threadId, userId, |audits|);
    assert s[|audits|] == a;
    if best.Some? {
      assert s[best.value - 1] == audits[best.value - 1];
    }
  }

  /** An escalating turn makes the thread read WAITING_ADMIN with the new audit. */
  lemma EscalationReadsWaiting(db: Db, question: string, userId: int, threadId: string, history: seq<string>,
                               rawIntent: string, th: RiskGate.Thresholds, now: int, notifyJobOk: bool, pushOk: bool)
    requires NotInFuture(db, threadId, userId, now)
    requires var (_, t) := ChatTurn(db, question, userId, threadId, history, rawIntent, th, now, notifyJobOk, pushOk);
             t.gate.Some? && t.gate.value.auditRequired
    ensures var (db', t) := ChatTurn(db, question, userId, threadId, history, rawIntent, th, now, notifyJobOk, pushOk);
            var id := t.gate.value.auditLogId.value;
            && id == |db'.audits|
            && ThreadStatus.GetThreadStatus(db', threadId, userId) ==
                 ThreadStatus.WaitingAdmin(id, db'.audits[id - 1].risk, db'.audits[id - 1].trigger)
  {
    var (db1, out) := Intake.HandleRefund(db, question, userId, now);
    var st := RiskGate.TurnState(question, userId, threadId, history, out.orderData, out.refundData);
    var a := RiskGate.NewAudit(st, st.refundData.value, th, now);
    assert db1.audits == db.audits;
    AppendedAuditIsNewest(db.audits, a, threadId, userId);
  }

  /** Once the reviewer decides the newest audit of a thread, the thread reads the
      verdict. */
  lemma DecisionReadsVerdict(db: Db, threadId: string, userId: int, action: string, comment: Option<string>,
                             adminId: int, now: int)
    requires ThreadStatus.NewestAudit(db.audits, threadId, userId).Some?
    requires var id := ThreadStatus.NewestAudit(db.audits, threadId, userId).value;
             Admin.AdminDecision(db, id, action, comment, adminId, now).Success?
    ensures var id := ThreadStatus.NewestAudit(db.audits, threadId, userId).value;
            var db' := Admin.AdminDecision(db, id, action, comment, adminId, now).value.0;
            var s := ThreadStatus.GetThreadStatus(db', threadId, userId);
            && (action == "APPROVE" ==> s == ThreadStatus.Approved(comment, Some(now)))
            && (action != "APPROVE" ==> s == ThreadStatus.Rejected(ThreadStatus.RejectReason(comment), comment, Some(now)))
  {
    var id := ThreadStatus.NewestAudit(db.audits, threadId, userId).value;
    var db' := Admin.AdminDecision(db, id, action, comment, adminId, now).value.0;
    assert forall i :: 0 <= i < |db.audits| && i != id - 1 ==> db'.audits[i] == db.audits[i];
    assert Admin.SameCase(db.audits[id - 1], db'.audits[id - 1]);
    assert db'.audits == db.audits[id - 1 := db'.audits[id - 1]];
    ThreadStatus.NewestInReplace(db.audits, id - 1, db'.audits[id - 1], threadId, userId, |db.audits|);
  }

  /** An auto-approved refund leaves the audits alone, so the thread keeps reading what
      it read before, PROCESSING if it had no audit, although the refund is APPROVED. */
  lemma AutoApprovalReadsUnchanged(db: Db, question: string, userId: int, threadId: string, history: seq<string>,
                                   rawIntent: string, th: RiskGate.Thresholds, now: int, notifyJobOk: bool, pushOk: bool)
    requires var (_, t) := ChatTurn(db, question, userId, threadId, history, rawIntent, th, now, notifyJobOk, pushOk);
             t.gate.Some? && t.gate.value.answer.AutoApproved?
    ensures var (db', t) := ChatTurn(db, question, userId, threadId, history, rawIntent, th, now, notifyJobOk, pushOk);
            var rid := t.gate.value.answer.refundId;
            && 1 <= rid <= |db'.refunds| && db'.refunds[rid - 1].status == RefundApproved
            && ThreadStatus.GetThreadStatus(db', threadId, userId) == ThreadStatus.GetThreadStatus(db, threadId, userId)
            && (ThreadStatus.NewestAudit(db.audits, threadId, userId).None? ==>
                  ThreadStatus.GetThreadStatus(db', threadId, userId) == ThreadStatus.Processing)
  {
    var (db', t) := ChatTurn(db, question, userId, threadId, history, rawIntent, th, now, notifyJobOk, pushOk);
    var rid := t.gate.value.answer.refundId;
    assert 1 <= rid <= |db'.refunds| && db'.refunds[rid - 1].status == RefundApproved && db'.audits == db.audits by {
      assert Intake.NormaliseIntent(rawIntent) == "REFUND";
      var (db1, out) := Intake.HandleRefund(db, question, userId, now);
      var st := RiskGate.TurnState(question, userId, threadId, history, out.orderData, out.refundData);
      var (db2, g) := RiskGate.CheckRefundEligibilityCorrected(db1, st, th, now, notifyJobOk, pushOk);
      assert db' == db2 && t.gate == Some(g);
      assert db1.audits == db.audits;
      assert out.refundData.Some? && out.refundData.value.refundId == |db1.refunds|;
      AutoApprovedRefundIsApproved(db1, st, th, now, notifyJobOk, pushOk);
    }
    SameAuditsSameStatus(db, db', threadId, userId);
  }

  /** The status poll reads the audit table only. */
  lemma SameAuditsSameStatus(db: Db, db': Db, threadId: string, userId: int)
    requires db'.audits == db.audits
    ensures ThreadStatus.GetThreadStatus(db', threadId, userId) == ThreadStatus.GetThreadStatus(db, threadId, userId)
  {
  }

  /** After the corrected gate auto-approves, the referenced refund row, the one intake
      just appended, reads APPROVED and the audits are untouched. */
  lemma AutoApprovedRefundIsApproved(db: Db, st: RiskGate.TurnState, th: RiskGate.Thresholds, now: int,
                                     notifyJobOk: bool, pushOk: bool)
    requires st.refundData.Some? && 1 <= st.refundData.value.refundId <= |db.refunds|
    requires RiskGate.CheckRefundEligibilityCorrected(db, st, th, now, notifyJobOk, pushOk).1.answer.AutoApproved?
    ensures var (db', g) := RiskGate.CheckRefundEligibilityCorrected(db, st, th, now, notifyJobOk, pushOk);
            var rid := g.answer.refundId;
            && rid == st.refundData.value.refundId
            && |db'.refunds| == |db.refunds| && db'.refunds[rid - 1].status == RefundApproved
            && db'.audits == db.audits
  {
    var (db3, g3) := RiskGate.CheckRefundEligibility(db, st, th, now, notifyJobOk, pushOk);
    assert !g3.auditRequired;
    assert RiskGate.AutoApprovedTable(db.refunds, db3.refunds, st.refundData.value.refundId, now);
  }

  // ---------------------------------------------------------------------------
  // What the reviewer queue shows
  // ---------------------------------------------------------------------------

  /** An escalated refund's audit enters the reviewer queue, unfiltered and under its
      own risk level. */
  lemma EscalationIsQueued(db: Db, st: RiskGate.TurnState, th: RiskGate.Thresholds, now: int,
                           notifyJobOk: bool, pushOk: bool, riskFilter: Option<string>)
    requires RiskGate.CheckRefundEligibilityCorrected(db, st, th, now, notifyJobOk, pushOk).1.auditRequired
    requires riskFilter.None? || riskFilter == Some("") ||
             riskFilter == Some(RiskGate.Classify(st.refundData.value.amount, th).Name())
    ensures var (db', g) := RiskGate.CheckRefundEligibilityCorrected(db, st, th, now, notifyJobOk, pushOk);
            var id := g.auditLogId.value;
            && id == |db'.audits|
            && Admin.AuditTask(id, db'.audits[id - 1]) in Admin.GetPendingTasks(db', riskFilter)
  {
    var (db', g) := RiskGate.CheckRefundEligibilityCorrected(db, st, th, now, notifyJobOk, pushOk);
    var id := g.auditLogId.value;
    assert db'.audits[id - 1] == RiskGate.NewAudit(st, st.refundData.value, th, now);
    assert Admin.Listed(db'.audits[id - 1], riskFilter);
  }

  /** A decision takes exactly its audit out of the reviewer queue and leaves every
      other entry in place. */
  lemma DecisionLeavesQueue(db: Db, id: int, action: string, comment: Option<string>, adminId: int, now: int,
                            riskFilter: Option<string>, t: Admin.AuditTask)
    requires Admin.AdminDecision(db, id, action, comment, adminId, now).Success?
    ensures var db' := Admin.AdminDecision(db, id, action, comment, adminId, now).value.0;
            t in Admin.GetPendingTasks(db', riskFilter) <==>
              t in Admin.GetPendingTasks(db, riskFilter) && t.auditLogId != id
  {
    var db' := Admin.AdminDecision(db, id, action, comment, adminId, now).value.0;
    if t.auditLogId == id {
      assert db'.audits[id - 1].action != Pending;
    } else if 1 <= t.auditLogId <= |db.audits| {
      assert db'.audits[t.auditLogId - 1] == db.audits[t.auditLogId - 1];
    }
  }
}

=== FILE: refund_service.dfy ===
/** The refund service of app/services/refund_service.py: the four-rule eligibility
    check with first-failure-wins semantics, and the owner-checked creation and query
    of refund applications. */
module RefundService {
  import opened Wrappers
  import opened Text
  import opened Models
  import Sorting

  // ---------------------------------------------------------------------------
  // RefundEligibilityChecker
  // ---------------------------------------------------------------------------

  /** The refund window, in whole days since the order was created. */
  const DeadlineDays: int := 7

  const SecondsPerDay: int := 86400

  /** Words that mark an item as not refundable: underwear, food, custom-made goods. */
  const NonRefundableCategories: seq<string> := ["内衣", "食品", "定制商品"]

  /** The reply when every rule passes. */
  const EligibleMessage: string := "订单符合退货条件"

  /** Why an order is not eligible; one constructor per rule, with what its message
      quotes. */
  datatype Ineligibility =
    | StatusNotAllowed(orderStatus: OrderStatus)
    | ExistingRefund(refundId: nat, refundStatus: RefundStatus)
    | PastDeadline(daysPassed: int)
    | NonRefundableItem(itemName: string, category: string)

  /** Rule 1: only shipped or delivered orders. */
  predicate AllowedStatus(s: OrderStatus) {
    s == Delivered || s == Shipped
  }

  /** Rule 2: a refund of the order that is still PENDING or already APPROVED. */
  predicate Blocks(r: Refund, orderId: nat) {
    r.orderId == orderId && (r.status == RefundPending || r.status == RefundApproved)
  }

  function BlockingRefund(refunds: seq<Refund>, orderId: nat): Option<nat> {
    FirstWhere(refunds, (r: Refund) => Blocks(r, orderId))
  }

  /** Rule 3: `timedelta.days`, the whole days elapsed, rounded down. */
  function DaysPassed(createdAt: int, now: int): int {
    (now - createdAt) / SecondsPerDay
  }

  /** The name an item is matched on; a missing name reads as "". */
  function ItemName(item: Item): string {
    item.name.GetOr("")
  }

  /** The first word of `words` that occurs in `s`. */
  function FirstWordIn(s: string, words: seq<string>): (w: Option<string>)
    ensures w.Some? ==> w.value in words && Contains(s, w.value)
    ensures w.Some? ==> exists k :: 0 <= k < |words| && words[k] == w.value &&
                          forall j :: 0 <= j < k ==> !Contains(s, words[j])
    ensures w.None? <==> !ContainsAny(s, words)
    decreases |words|
  {
    if |words| == 0 then None
    else if Contains(s, words[0]) then Some(words[0])
    else
      var rest := FirstWordIn(s, words[1..]);
      assert forall k :: 1 <= k < |words| ==> words[k] == words[1..][k - 1];
      assert ContainsAny(s, words) ==> ContainsAny(s, words[1..]) by {
        if ContainsAny(s, words) {
          var k :| 0 <= k < |words| && Contains(s, words[k]);
          assert words[1..][k - 1] == words[k];
        }
      }
      if rest.Some? then
        var k :| 0 <= k < |words[1..]| && words[1..][k] == rest.value &&
                 forall j :: 0 <= j < k ==> !Contains(s, words[1..][j]);
        assert words[k + 1] == rest.value;
        rest
      else rest
  }

  /** An item whose name contains a non-refundable word. */
  predicate NonRefundable(item: Item) {
    ContainsAny(ItemName(item), NonRefundableCategories)
  }

  /** Rule 4: the first item from position `from` on that is not refundable, and the
      first of the words it contains. */
  function FirstNonRefundable(items: seq<Item>, from: nat): (r: Option<(nat, string)>)
    requires from <= |items|
    ensures r.Some? ==> from <= r.value.0 < |items| && NonRefundable(items[r.value.0])
    ensures r.Some? ==> FirstWordIn(ItemName(items[r.value.0]), NonRefundableCategories) == Some(r.value.1)
    ensures r.Some? ==> forall i :: from <= i < r.value.0 ==> !NonRefundable(items[i])
    ensures r.None? <==> forall i :: from <= i < |items| ==> !NonRefundable(items[i])
    decreases |items| - from
  {
    if from == |items| then None
    else
      match FirstWordIn(ItemName(items[from]), NonRefundableCategories)
      case Some(w) => Some((from, w))
      case None => FirstNonRefundable(items, from + 1)
  }

  /** `check_eligibility`: the four rules in order; the first failing rule decides. */
  function CheckEligibility(refunds: seq<Refund>, orderId: nat, order: Order, now: int): (r: Result<string, Ineligibility>)
    ensures r.Success? <==>
              && AllowedStatus(order.status)
              && (forall i :: 0 <= i < |refunds| ==> !Blocks(refunds[i], orderId))
              && DaysPassed(order.createdAt, now) <= DeadlineDays
              && (forall i :: 0 <= i < |order.items| ==> !NonRefundable(order.items[i]))
    ensures r.Success? ==> r.value == EligibleMessage
    // rule 1
    ensures !AllowedStatus(order.status) ==> r == Failure(StatusNotAllowed(order.status))
    // rule 2: the first blocking refund is quoted
    ensures AllowedStatus(order.status) && BlockingRefund(refunds, orderId).Some? ==>
              var id := BlockingRefund(refunds, orderId).value;
              r == Failure(ExistingRefund(id, refunds[id - 1].status))
    // rule 3
    ensures && AllowedStatus(order.status) && BlockingRefund(refunds, orderId).None?
            && DaysPassed(order.createdAt, now) > DeadlineDays ==>
              r == Failure(PastDeadline(DaysPassed(order.createdAt, now)))
    // rule 4: the first non-refundable item is quoted
    ensures && AllowedStatus(order.status) && BlockingRefund(refunds, orderId).None?
            && DaysPassed(order.createdAt, now) <= DeadlineDays
            && FirstNonRefundable(order.items, 0).Some? ==>
              var (i, w) := FirstNonRefundable(order.items, 0).value;
              r == Failure(NonRefundableItem(ItemName(order.items[i]), w))
  {
    if !AllowedStatus(order.status) then Failure(StatusNotAllowed(order.status))
    else
      match BlockingRefund(refunds, orderId)
      case Some(id) => Failure(ExistingRefund(id, refunds[id - 1].status))
      case None =>
        var days := DaysPassed(order.createdAt, now);
        if days > DeadlineDays then Failure(PastDeadline(days))
        else
          match FirstNonRefundable(order.items, 0)
          case Some((i, w)) => Failure(NonRefundableItem(ItemName(order.items[i]), w))
          case None => Success(EligibleMessage)
  }

  /** The time rule in seconds: an order is late exactly when eight full days have
      passed, so an order exactly seven days old still passes. */
  lemma DeadlineInSeconds(createdAt: int, now: int)
    ensures DaysPassed(createdAt, now) > DeadlineDays <==> now - createdAt >= (DeadlineDays + 1) * SecondsPerDay
  {
    var d := now - createdAt;
    var q := d / SecondsPerDay;
    assert d == q * SecondsPerDay + d % SecondsPerDay;
    assert 0 <= d % SecondsPerDay < SecondsPerDay;
    if q > DeadlineDays {
      assert q >= DeadlineDays + 1;
      assert q * SecondsPerDay >= (DeadlineDays + 1) * SecondsPerDay;
    } else {
      assert q * SecondsPerDay <= DeadlineDays * SecondsPerDay;
    }
  }

  lemma {:induction false} FirstWherePrefix<T>(t: seq<T>, extra: seq<T>, p: T -> bool)
    requires FirstWhere(t, p).Some?
    ensures FirstWhere(t + extra, p) == FirstWhere(t, p)
  {
    var id := FirstWhere(t, p).value;
    var e := FirstWhere(t + extra, p);
    assert (t + extra)[id - 1] == t[id - 1];
    assert e.Some?;
  }

  /** A REJECTED, COMPLETED or CANCELLED refund never blocks a new application: adding
      one leaves the verdict as it was. */
  lemma SettledRefundsDoNotBlock(refunds: seq<Refund>, orderId: nat, order: Order, now: int, settled: Refund)
    requires settled.status in {RefundRejected, RefundCompleted, RefundCancelled}
    ensures CheckEligibility(refunds + [settled], orderId, order, now) == CheckEligibility(refunds, orderId, order, now)
  {
    var p := (r: Refund) => Blocks(r, orderId);
    var t := refunds + [settled];
    assert !Blocks(settled, orderId);
    if BlockingRefund(refunds, orderId).Some? {
      FirstWherePrefix(refunds, [settled], p);
      var id := BlockingRefund(refunds, orderId).value;
      assert t[id - 1] == refunds[id - 1];
    } else {
      assert forall i :: 0 <= i < |t| ==> !p(t[i]) by {
        forall i | 0 <= i < |t| ensures !p(t[i]) {
          if i < |refunds| { assert t[i] == refunds[i]; }
        }
      }
    }
  }

  // ---------------------------------------------------------------------------
  // RefundApplicationService
  // ---------------------------------------------------------------------------

  datatype CreateError =
    | OrderNotAccessible
    | NotEligible(why: Ineligibility)
    | CommitFailed

  /** The order with this id, when it belongs to this user (`WHERE id = ? AND user_id = ?`). */
  function OwnedOrder(orders: seq<Order>, orderId: int, userId: int): (o: Option<Order>)
    ensures o.Some? <==> 1 <= orderId <= |orders| && orders[orderId - 1].userId == userId
    ensures o.Some? ==> o.value == orders[orderId - 1]
  {
    if 1 <= orderId <= |orders| && orders[orderId - 1].userId == userId then Some(orders[orderId - 1]) else None
  }

  /** `create_refund_application`. `commitOk` says whether the commit succeeds; on
      failure the session is rolled back and nothing is written. */
  function CreateRefundApplication(db: Db, orderId: int, userId: int, reasonDetail: string,
                                   category: Option<RefundReason>, now: int, commitOk: bool): (r: (Db, Result<nat, CreateError>))
    ensures OwnedOrder(db.orders, orderId, userId).None? ==> r == (db, Failure(OrderNotAccessible))
    ensures OwnedOrder(db.orders, orderId, userId).Some? ==>
              var order := db.orders[orderId - 1];
              var verdict := CheckEligibility(db.refunds, orderId, order, now);
              && (verdict.Failure? ==> r == (db, Failure(NotEligible(verdict.error))))
              && (verdict.Success? && !commitOk ==> r == (db, Failure(CommitFailed)))
              && (verdict.Success? && commitOk ==> r.1.Success?)
    // a refund is written exactly on success: PENDING, for the order's total, unreviewed
    ensures r.1.Failure? ==> r.0 == db
    ensures r.1.Success? ==> |r.0.refunds| == |db.refunds| + 1
    ensures r.1.Success? ==>
              && OwnedOrder(db.orders, orderId, userId).Some? && commitOk
              && CheckEligibility(db.refunds, orderId, db.orders[orderId - 1], now).Success?
              && r.1.value == |db.refunds| + 1
              && r.0 == db.(refunds := db.refunds + [r.0.refunds[|db.refunds|]])
              && var refund := r.0.refunds[|db.refunds|];
                 && refund.orderId == orderId && refund.userId == userId
                 && refund.status == RefundPending
                 && refund.refundAmount == db.orders[orderId - 1].totalAmount
                 && refund.reasonCategory == category && refund.reasonDetail == reasonDetail
                 && refund.createdAt == now
                 && RefundUnreviewedWhilePending(refund)
  {
    match OwnedOrder(db.orders, orderId, userId)
    case None => (db, Failure(OrderNotAccessible))
    case Some(order) =>
      match CheckEligibility(db.refunds, orderId, order, now)
      case Failure(why) => (db, Failure(NotEligible(why)))
      case Success(_) =>
        if !commitOk then (db, Failure(CommitFailed))
        else
          var refund := Refund(orderId, userId, RefundPending, category, reasonDetail,
                               order.totalAmount, None, None, None, now);
          (db.(refunds := db.refunds + [refund]), Success(|db.refunds| + 1))
  }

  /** After a successful application the same order cannot be applied for again:
      the new PENDING refund blocks it. */
  lemma NoSecondApplication(db: Db, orderId: int, userId: int, d1: string, d2: string,
                            c1: Option<RefundReason>, c2: Option<RefundReason>, t1: int, t2: int, ok2: bool)
    requires CreateRefundApplication(db, orderId, userId, d1, c1, t1, true).1.Success?
    ensures var db1 := CreateRefundApplication(db, orderId, userId, d1, c1, t1, true).0;
            var r2 := CreateRefundApplication(db1, orderId, userId, d2, c2, t2, ok2);
            && r2.0 == db1
            && r2.1.Failure? && r2.1.error.NotEligible? && r2.1.error.why.ExistingRefund?
  {
    var db1 := CreateRefundApplication(db, orderId, userId, d1, c1, t1, true).0;
    var n := |db.refunds|;
    assert Blocks(db1.refunds[n], orderId);
    assert BlockingRefund(db1.refunds, orderId).Some?;
  }

  /** One entry of a refund listing: the refund id and the row. */
  datatype RefundEntry = RefundEntry(refundId: nat, refund: Refund)

  predicate ListedFor(r: Refund, userId: int, status: Option<RefundStatus>) {
    r.userId == userId && (status.None? || r.status == status.value)
  }

  /** The user's refunds from position `from` on, in table order. */
  function UserRefundsFrom(refunds: seq<Refund>, userId: int, status: Option<RefundStatus>, from: nat): (r: seq<RefundEntry>)
    requires from <= |refunds|
    ensures forall e :: e in r <==>
              from < e.refundId <= |refunds| && e.refund == refunds[e.refundId - 1] &&
              ListedFor(e.refund, userId, status)
    ensures forall i, j :: 0 <= i < j < |r| ==> r[i].refundId < r[j].refundId
    decreases |refunds| - from
  {
    if from == |refunds| then []
    else
      var rest := UserRefundsFrom(refunds, userId, status, from + 1);
      if ListedFor(refunds[from], userId, status) then [RefundEntry(from + 1, refunds[from])] + rest else rest
  }

  function EntryCreatedAt(e: RefundEntry): int {
    e.refund.createdAt
  }

  /** `get_user_refund_applications`: the user's refunds, optionally of one status,
      each once, newest first. */
  function GetUserRefundApplications(db: Db, userId: int, status: Option<RefundStatus>): (r: seq<RefundEntry>)
    ensures Sorting.SortedDesc(r, EntryCreatedAt)
    ensures multiset(r) == multiset(UserRefundsFrom(db.refunds, userId, status, 0))
    ensures forall e :: e in r <==>
              1 <= e.refundId <= |db.refunds| && e.refund == db.refunds[e.refundId - 1] &&
              e.refund.userId == userId && (status.None? || e.refund.status == status.value)
    ensures forall i, j :: 0 <= i < j < |r| ==> r[i].refundId != r[j].refundId
  {
    var listed := UserRefundsFrom(db.refunds, userId, status, 0);
    var r := Sorting.SortNewestFirst(listed, EntryCreatedAt);
    forall e ensures e in r <==> e in listed {
      Sorting.SortedMembers(listed, EntryCreatedAt, e);
    }
    Sorting.PermutationKeepsDistinct(r, listed);
    forall i, j | 0 <= i < j < |r| ensures r[i].refundId != r[j].refundId {
      assert r[i] in listed && r[j] in listed;
    }
    r
  }

  /** `get_refund_by_id`: the refund, only for its owner. */
  function GetRefundById(db: Db, refundId: int, userId: int): (r: Option<Refund>)
    ensures r.Some? <==> 1 <= refundId <= |db.refunds| && db.refunds[refundId - 1].userId == userId
    ensures r.Some? ==> r.value == db.refunds[refundId - 1]
  {
    if 1 <= refundId <= |db.refunds| && db.refunds[refundId - 1].userId == userId
    then Some(db.refunds[refundId - 1]) else None
  }

  /** A new application is visible to its owner, in the owner's listing and by id, and
      to nobody else. */
  lemma CreatedRefundIsVisibleToOwnerOnly(db: Db, orderId: int, userId: int, detail: string,
                                          category: Option<RefundReason>, now: int, other: int)
    requires CreateRefundApplication(db, orderId, userId, detail, category, now, true).1.Success?
    ensures var (db', r) := CreateRefundApplication(db, orderId, userId, detail, category, now, true);
            var id := r.value;
            var refund := db'.refunds[id - 1];
            && GetRefundById(db', id, userId) == Some(refund)
            && (other != userId ==> GetRefundById(db', id, other).None?)
            && RefundEntry(id, refund) in GetUserRefundApplications(db', userId, None)
            && RefundEntry(id, refund) in GetUserRefundApplications(db', userId, Some(RefundPending))
            && (other != userId ==> RefundEntry(id, refund) !in GetUserRefundApplications(db', other, None))
  {
  }
}

=== FILE: sorting.dfy ===
/** `ORDER BY <timestamp> DESC` over a table: a stable insertion sort on sequences,
    proved to return a newest-first permutation of its input. */
module Sorting {

  /** Every element's key is at least that of every later element. */
  predicate SortedDesc<T>(s: seq<T>, key: T -> int) {
    forall i, j :: 0 <= i < j < |s| ==> key(s[i]) >= key(s[j])
  }

  /** Inserts `x` in front of the first element with a smaller key. */
  function Insert<T>(x: T, s: seq<T>, key: T -> int): (r: seq<T>)
    requires SortedDesc(s, key)
    ensures SortedDesc(r, key)
    ensures multiset(r) == multiset(s) + multiset{x}
    decreases |s|
  {
    if |s| == 0 then [x]
    else if key(x) >= key(s[0]) then [x] + s
    else
      var tail := Insert(x, s[1..], key);
      assert s == [s[0]] + s[1..];
      HeadBoundsInsertion(x, s, key, tail);
      [s[0]] + tail
  }

  /** The head of a sorted sequence bounds anything built from its tail and a smaller
      element. */
  lemma HeadBoundsInsertion<T>(x: T, s: seq<T>, key: T -> int, tail: seq<T>)
    requires |s| > 0 && SortedDesc(s, key) && key(x) < key(s[0])
    requires multiset(tail) == multiset(s[1..]) + multiset{x}
    ensures forall j :: 0 <= j < |tail| ==> key(s[0]) >= key(tail[j])
  {
    forall j | 0 <= j < |tail| ensures key(s[0]) >= key(tail[j]) {
      assert tail[j] in multiset(tail);
      if tail[j] != x {
        assert tail[j] in multiset(s[1..]);
        var k :| 0 <= k < |s[1..]| && s[1..][k] == tail[j];
        assert s[k + 1] == tail[j];
      }
    }
  }

  /** The rows of `s`, newest (largest key) first; rows with equal keys keep their
      table order. */
  function SortNewestFirst<T>(s: seq<T>, key: T -> int): (r: seq<T>)
    ensures SortedDesc(r, key)
    ensures multiset(r) == multiset(s)
    decreases |s|
  {
    if |s| == 0 then []
    else
      assert s == [s[0]] + s[1..];
      Insert(s[0], SortNewestFirst(s[1..], key), key)
  }

  /** A newest-first permutation holds exactly the input's elements. */
  lemma SortedMembers<T>(s: seq<T>, key: T -> int, x: T)
    ensures x in SortNewestFirst(s, key) <==> x in s
  {
    var r := SortNewestFirst(s, key);
    assert x in r <==> x in multiset(r);
    assert x in s <==> x in multiset(s);
  }

  /** No element occurs twice. */
  predicate Distinct<T(==)>(s: seq<T>) {
    forall i, j :: 0 <= i < j < |s| ==> s[i] != s[j]
  }

  /** In a sequence without repeats every element is counted at most once. */
  lemma {:induction false} DistinctCountsOnce<T>(s: seq<T>, x: T)
    requires Distinct(s)
    ensures multiset(s)[x] <= 1
    decreases |s|
  {
    if |s| > 0 {
      assert s == [s[0]] + s[1..];
      DistinctCountsOnce(s[1..], x);
      if s[0] == x {
        assert x !in s[1..];
      }
    }
  }

  /** A permutation of a sequence without repeats has none either. */
  lemma PermutationKeepsDistinct<T>(a: seq<T>, b: seq<T>)
    requires multiset(a) == multiset(b) && Distinct(b)
    ensures Distinct(a)
  {
    forall i, j | 0 <= i < j < |a| ensures a[i] != a[j] {
      if a[i] == a[j] {
        assert a == a[..i] + [a[i]] + a[i + 1..j] + [a[j]] + a[j + 1..];
        assert multiset(a)[a[i]] >= 2;
        DistinctCountsOnce(b, a[i]);
      }
    }
  }
}

=== FILE: sse.dfy ===
/** The server-sent-events stream of the chat endpoint (app/api/v1/chat.py) and the
    line decoder the customer client runs on it (`ChatClient.send_message` in
    app/frontend/customer_ui.py), with the graph thread key the endpoint composes.

    JSON is abstract: values are the `Json` datatype, and the encoder and decoder are
    functions passed in, assumed only to invert each other, to write no raw line feed
    (the standard encoder escapes control characters inside strings) and to reject
    the text `[DONE]`. */
module Sse {
  import opened Wrappers
  import opened Text
  import opened Models

  // ---------------------------------------------------------------------------
  // Thread key
  // ---------------------------------------------------------------------------

  /** The graph thread id: `f"{user_id}_{thread_id}"`. */
  function ThreadKey(userId: nat, threadId: string): string {
    NatToString(userId) + "_" + threadId
  }

  /** The index of the first `c` at or after `from`, or `|s|`. */
  function IndexOf(s: string, c: char, from: nat): (k: nat)
    requires from <= |s|
    ensures from <= k <= |s|
    ensures k < |s| ==> s[k] == c
    ensures forall i :: from <= i < k ==> s[i] != c
    decreases |s| - from
  {
    if from == |s| || s[from] == c then from else IndexOf(s, c, from + 1)
  }

  /** The text before the first "_" of a key, and the text after it. */
  function KeyUser(key: string): string {
    key[..IndexOf(key, '_', 0)]
  }

  function KeyThread(key: string): string {
    var k := IndexOf(key, '_', 0);
    if k < |key| then key[k + 1..] else ""
  }

  /** A decimal user id contains no "_", so the key splits back into its parts. */
  lemma ThreadKeySplits(userId: nat, threadId: string)
    ensures KeyUser(ThreadKey(userId, threadId)) == NatToString(userId)
    ensures KeyThread(ThreadKey(userId, threadId)) == threadId
    ensures ParseNat(KeyUser(ThreadKey(userId, threadId))) == userId
  {
    var u := NatToString(userId);
    var key := ThreadKey(userId, threadId);
    var k := IndexOf(key, '_', 0);
    assert key[|u|] == '_';
    assert forall i :: 0 <= i < |u| ==> key[i] == u[i] && IsDigit(key[i]);
    assert k == |u|;
    assert key[..k] == u;
    assert key[k + 1..] == threadId;
    ParseNatToString(userId);
  }

  /** Different users, or different client thread ids, never share a graph thread. */
  lemma ThreadKeysDistinct(u1: nat, t1: string, u2: nat, t2: string)
    ensures ThreadKey(u1, t1) == ThreadKey(u2, t2) ==> u1 == u2 && t1 == t2
  {
    ThreadKeySplits(u1, t1);
    ThreadKeySplits(u2, t2);
  }

  // ---------------------------------------------------------------------------
  // JSON, frames and lines
  // ---------------------------------------------------------------------------

  /** A JSON value; numbers and the literals true, false and null carry nothing the
      decoder looks at. */
  datatype Json =
    | JString(s: string)
    | JNumber
    | JLiteral
    | JList(items: seq<Json>)
    | JObject(fields: map<string, Json>)

  datatype Codec = Codec(encode: Json -> string, decode: string -> Option<Json>)

  /** What the round trip needs of the JSON codec: decoding inverts encoding, no
      encoding holds a raw line feed, and `[DONE]` is not JSON. */
  ghost predicate SoundCodec(c: Codec) {
    && (forall v :: c.decode(c.encode(v)) == Some(v))
    && (forall v :: '\n' !in c.encode(v))
    && c.decode(Done) == None
  }

  const DataPrefix: string := "data: "
  const Done: string := "[DONE]"

  /** One event-stream frame: `f"data: {payload}\n\n"`. */
  function Frame(payload: string): string {
    DataPrefix + payload + "\n\n"
  }

  function Frames(payloads: seq<string>): (frames: seq<string>)
    ensures |frames| == |payloads|
    ensures forall i :: 0 <= i < |payloads| ==> frames[i] == Frame(payloads[i])
  {
    seq(|payloads|, i requires 0 <= i < |payloads| => Frame(payloads[i]))
  }

  /** The response body: the frames written one after the other. */
  function Concat(parts: seq<string>): string
    decreases |parts|
  {
    if |parts| == 0 then "" else parts[0] + Concat(parts[1..])
  }

  /** Python's `str.splitlines` with line feed as the only line boundary: no empty
      last line for a trailing line feed. */
  function SplitLines(s: string): (lines: seq<string>)
    ensures forall k :: 0 <= k < |lines| ==> '\n' !in lines[k]
    decreases |s|
  {
    if |s| == 0 then []
    else
      var k := IndexOf(s, '\n', 0);
      if k == |s| then
        assert forall i :: 0 <= i < |s| ==> s[i] != '\n';
        [s]
      else
        assert forall i :: 0 <= i < k ==> s[..k][i] != '\n';
        [s[..k]] + SplitLines(s[k + 1..])
  }

  /** The lines a run of frames splits into: the data line and an empty line each. */
  function FrameLines(payloads: seq<string>): seq<string>
    decreases |payloads|
  {
    if |payloads| == 0 then [] else [DataPrefix + payloads[0], ""] + FrameLines(payloads[1..])
  }

  lemma {:induction false} FrameLinesAppend(a: seq<string>, b: seq<string>)
    ensures FrameLines(a + b) == FrameLines(a) + FrameLines(b)
    decreases |a|
  {
    if |a| > 0 {
      assert (a + b)[0] == a[0];
      assert (a + b)[1..] == a[1..] + b;
      FrameLinesAppend(a[1..], b);
    } else {
      assert a + b == b;
    }
  }

  /** A line followed by a line feed splits off as the first line. */
  lemma SplitLinesCons(s: string, line: string, rest: string)
    requires s == line + "\n" + rest && '\n' !in line
    ensures SplitLines(s) == [line] + SplitLines(rest)
  {
    var k := IndexOf(s, '\n', 0);
    assert s[|line|] == '\n';
    assert forall i :: 0 <= i < |line| ==> s[i] == line[i];
    assert k == |line|;
    assert s[..k] == line;
    assert s[k + 1..] == rest;
  }

  /** One frame splits into its data line and an empty line, whatever follows it. */
  lemma SplitFrame(p: string, rest: string)
    requires '\n' !in p
    ensures SplitLines(Frame(p) + rest) == [DataPrefix + p, ""] + SplitLines(rest)
  {
    var s := Frame(p) + rest;
    var tail := "\n" + rest;
    assert SplitLines(tail) == [""] + SplitLines(rest) by {
      SplitLinesCons(tail, "", rest);
    }
    assert SplitLines(s) == [DataPrefix + p] + SplitLines(tail) by {
      DataLineHasNoNewline(p);
      assert s == (DataPrefix + p) + "\n" + tail by {
        assert "\n\n" == "\n" + "\n";
      }
      SplitLinesCons(s, DataPrefix + p, tail);
    }
  }

  lemma DataLineHasNoNewline(p: string)
    requires '\n' !in p
    ensures '\n' !in DataPrefix + p
  {
    var line := DataPrefix + p;
    assert forall i :: 0 <= i < |DataPrefix| ==> line[i] == DataPrefix[i];
    assert forall i :: |DataPrefix| <= i < |line| ==> line[i] == p[i - |DataPrefix|];
  }

  /** The body of a run of frames splits into their lines. */
  lemma {:induction false} SplitFrames(payloads: seq<string>)
    requires forall i :: 0 <= i < |payloads| ==> '\n' !in payloads[i]
    ensures SplitLines(Concat(Frames(payloads))) == FrameLines(payloads)
    decreases |payloads|
  {
    if |payloads| > 0 {
      var frames := Frames(payloads);
      assert frames[1..] == Frames(payloads[1..]);
      assert Concat(frames) == Frame(payloads[0]) + Concat(Frames(payloads[1..]));
      SplitFrame(payloads[0], Concat(Frames(payloads[1..])));
      SplitFrames(payloads[1..]);
    }
  }

  // ---------------------------------------------------------------------------
  // event_generator
  // ---------------------------------------------------------------------------

  /** A graph event: its kind and the streamed chunk's content, if the event carries a
      chunk. */
  datatype Event = Event(kind: string, content: Option<string>)

  /** The token an event yields: only model-stream events with non-empty content. */
  function Emitted(e: Event): (t: Option<string>)
    ensures t.Some? <==> e.kind == "on_chat_model_stream" && e.content.Some? && e.content.value != ""
    ensures t.Some? ==> t.value == e.content.value
  {
    if e.kind == "on_chat_model_stream" && e.content.Some? && e.content.value != "" then e.content else None
  }

  function TokenObject(t: string): Json {
    JObject(map["token" := JString(t)])
  }

  function ErrorObject(e: string): Json {
    JObject(map["error" := JString(e)])
  }

  /** The payloads of the token frames, in event order. */
  function TokenPayloads(events: seq<Event>, c: Codec): (ps: seq<string>)
    ensures |ps| <= |events|
    decreases |events|
  {
    if |events| == 0 then []
    else
      var rest := TokenPayloads(events[1..], c);
      match Emitted(events[0])
      case Some(t) => [c.encode(TokenObject(t))] + rest
      case None => rest
  }

  /** The streamed tokens, concatenated. */
  function Tokens(events: seq<Event>): string
    decreases |events|
  {
    if |events| == 0 then ""
    else
      match Emitted(events[0])
      case Some(t) => t + Tokens(events[1..])
      case None => Tokens(events[1..])
  }

  /** The payload of the last frame: `[DONE]`, or the error object. */
  function LastPayload(failure: Option<string>, c: Codec): string {
    if failure.None? then Done else c.encode(ErrorObject(failure.value))
  }

  /** `event_generator`: one frame per emitted token, then `[DONE]` when the graph
      finishes, or an error frame when it raises `failure` after the events shown. */
  function EventStream(events: seq<Event>, failure: Option<string>, c: Codec): (frames: seq<string>)
    ensures |frames| == |TokenPayloads(events, c)| + 1
    ensures frames[..|frames| - 1] == Frames(TokenPayloads(events, c))
    ensures failure.None? ==> frames[|frames| - 1] == Frame(Done)
    ensures failure.Some? ==> frames[|frames| - 1] == Frame(c.encode(ErrorObject(failure.value)))
  {
    var frames := Frames(TokenPayloads(events, c) + [LastPayload(failure, c)]);
    assert frames[..|frames| - 1] == Frames(TokenPayloads(events, c));
    frames
  }

  const ServiceUnavailable: ApiError :=
    ApiError(503, "Chat service is not fully initialized. Please try again in a moment.")

  /** The chat endpoint: 503 before streaming when the graph is not compiled, otherwise
      the graph thread key and the stream. */
  function Chat(graphReady: bool, userId: nat, threadId: string, events: seq<Event>,
                failure: Option<string>, c: Codec): (r: Result<(string, seq<string>), ApiError>)
    ensures !graphReady <==> r.Failure?
    ensures r.Failure? ==> r.error == ServiceUnavailable
    ensures r.Success? ==> (r.value.0 == ThreadKey(userId, threadId) &&
                            r.value.1 == EventStream(events, failure, c))
  {
    if !graphReady then Failure(ServiceUnavailable)
    else Success((ThreadKey(userId, threadId), EventStream(events, failure, c)))
  }

  // ---------------------------------------------------------------------------
  // ChatClient.send_message
  // ---------------------------------------------------------------------------

  datatype ClientError =
    | EmptyMessage
    | HttpError(code: int)
    | AgentError(error: Json)
    | RequestFailed

  /** What one decoded payload does to the answer being built. Any `TypeError` the
      client's key tests raise ends the call as a failed request. */
  datatype StepResult = Skip | AppendToken(token: string) | Stop(error: ClientError)

  function Step(d: Option<Json>): (r: StepResult)
    ensures r.AppendToken? <==> d.Some? && d.value.JObject? && "token" in d.value.fields && d.value.fields["token"].JString?
    ensures (r == Stop(RequestFailed)) ==> d.Some?
    ensures d.None? ==> r == Skip
    ensures r.AppendToken? ==> r.token == d.value.fields["token"].s
    ensures d.Some? && d.value.JObject? && "token" in d.value.fields && !d.value.fields["token"].JString? ==>
              r == Stop(RequestFailed)
    ensures d.Some? && d.value.JObject? && "token" !in d.value.fields && "error" in d.value.fields ==>
              r == Stop(AgentError(d.value.fields["error"]))
    ensures d.Some? && d.value.JObject? && "token" !in d.value.fields && "error" !in d.value.fields ==> r == Skip
  {
    match d
    case None => Skip
    case Some(v) =>
      match v
      case JObject(f) =>
        if "token" in f then
          (if f["token"].JString? then AppendToken(f["token"].s) else Stop(RequestFailed))
        else if "error" in f then Stop(AgentError(f["error"]))
        else Skip
      case JString(s) =>
        if Contains(s, "token") || Contains(s, "error") then Stop(RequestFailed) else Skip
      case JList(items) =>
        if JString("token") in items || JString("error") in items then Stop(RequestFailed) else Skip
      case JNumber => Stop(RequestFailed)
      case JLiteral => Stop(RequestFailed)
  }

  predicate StartsWith(s: string, prefix: string) {
    |prefix| <= |s| && s[..|prefix|] == prefix
  }

  /** The client's loop over the response lines: skip blank and non-data lines, stop
      at `[DONE]`, append tokens, fail at the first error. */
  function DecodeLines(lines: seq<string>, dec: string -> Option<Json>): (r: Result<string, ClientError>)
    ensures r.Failure? ==> exists i :: 0 <= i < |lines| && IsDataLine(lines[i]) &&
                                      Step(dec(lines[i][|DataPrefix|..])) == Stop(r.error)
    decreases |lines|
  {
    if |lines| == 0 then Success("")
    else
      var line := lines[0];
      if !IsDataLine(line) then DecodeLines(lines[1..], dec)
      else
        var data := line[|DataPrefix|..];
        if data == Done then Success("")
        else
          match Step(dec(data))
          case Skip => DecodeLines(lines[1..], dec)
          case Stop(e) => Failure(e)
          case AppendToken(t) =>
            var rest := DecodeLines(lines[1..], dec);
            if rest.Success? then Success(t + rest.value) else rest
  }

  /** A non-empty line that starts with `data: `. */
  predicate IsDataLine(line: string) {
    line != "" && StartsWith(line, DataPrefix)
  }

  /** Blank lines and lines without the `data: ` prefix are skipped. */
  lemma NonDataLineSkipped(line: string, rest: seq<string>, dec: string -> Option<Json>)
    requires !IsDataLine(line)
    ensures DecodeLines([line] + rest, dec) == DecodeLines(rest, dec)
  {
    assert ([line] + rest)[1..] == rest;
  }

  /** A data line whose payload is an object with an `error` but no `token` ends the
      call with that error, whatever follows. */
  lemma ErrorLineStops(payload: string, rest: seq<string>, dec: string -> Option<Json>)
    requires payload != Done
    requires dec(payload).Some? && dec(payload).value.JObject?
    requires "token" !in dec(payload).value.fields && "error" in dec(payload).value.fields
    ensures DecodeLines([DataPrefix + payload] + rest, dec) == Failure(AgentError(dec(payload).value.fields["error"]))
  {
    var line := DataPrefix + payload;
    assert line[..|DataPrefix|] == DataPrefix;
    assert line[|DataPrefix|..] == payload;
    assert ([line] + rest)[0] == line;
  }

  /** Lines after a `[DONE]` line are never looked at. */
  lemma {:induction false} DoneStopsDecoding(before: seq<string>, after: seq<string>, dec: string -> Option<Json>)
    ensures DecodeLines(before + [DataPrefix + Done] + after, dec) == DecodeLines(before + [DataPrefix + Done], dec)
    decreases |before|
  {
    var done := DataPrefix + Done;
    assert done[|DataPrefix|..] == Done;
    assert StartsWith(done, DataPrefix);
    if |before| == 0 {
      assert before + [done] + after == [done] + after;
      assert before + [done] == [done];
    } else {
      assert (before + [done] + after)[1..] == before[1..] + [done] + after;
      assert (before + [done])[1..] == before[1..] + [done];
      assert (before + [done] + after)[0] == before[0] == (before + [done])[0];
      DoneStopsDecoding(before[1..], after, dec);
    }
  }

  datatype HttpResponse = HttpResponse(status: int, body: string)

  /** `send_message` up to its final status poll: a blank message is refused without a
      request; `response` is what the request returned, `None` when it raised. */
  function SendMessage(message: string, response: Option<HttpResponse>, dec: string -> Option<Json>): (r: Result<string, ClientError>)
    ensures IsBlank(message) <==> r == Failure(EmptyMessage)
    ensures !IsBlank(message) && response.None? ==> r == Failure(RequestFailed)
    ensures !IsBlank(message) && response.Some? && response.value.status != 200 ==>
              r == Failure(HttpError(response.value.status))
    ensures r.Success? ==> response.Some? && response.value.status == 200
  {
    if Strip(message) == [] then Failure(EmptyMessage)
    else if response.None? then Failure(RequestFailed)
    else if response.value.status != 200 then Failure(HttpError(response.value.status))
    else
      var r := DecodeLines(SplitLines(response.value.body), dec);
      assert r != Failure(EmptyMessage) by { DecodeNeverEmptyMessage(SplitLines(response.value.body), dec); }
      r
  }

  lemma {:induction false} DecodeNeverEmptyMessage(lines: seq<string>, dec: string -> Option<Json>)
    ensures DecodeLines(lines, dec) != Failure(EmptyMessage)
    decreases |lines|
  {
    if |lines| > 0 {
      DecodeNeverEmptyMessage(lines[1..], dec);
    }
  }

  /** The answer a decode ends with, after `t` has been appended in front. */
  function Prepend(t: string, r: Result<string, ClientError>): Result<string, ClientError> {
    if r.Success? then Success(t + r.value) else r
  }

  /** Decoding the token frames of a stream yields its tokens in front of whatever the
      rest of the body decodes to. */
  lemma {:induction false} DecodeTokenLines(events: seq<Event>, tail: seq<string>, c: Codec)
    requires SoundCodec(c)
    ensures DecodeLines(FrameLines(TokenPayloads(events, c)) + tail, c.decode) ==
              Prepend(Tokens(events), DecodeLines(tail, c.decode))
    decreases |events|
  {
    var ps := TokenPayloads(events, c);
    if |events| == 0 {
      assert FrameLines(ps) + tail == tail;
      var r := DecodeLines(tail, c.decode);
      if r.Success? { assert "" + r.value == r.value; }
    } else {
      DecodeTokenLines(events[1..], tail, c);
      var rest := TokenPayloads(events[1..], c);
      match Emitted(events[0])
      case None =>
      case Some(t) =>
        var p := c.encode(TokenObject(t));
        assert ps == [p] + rest;
        FrameLinesAppend([p], rest);
        assert FrameLines([p]) == [DataPrefix + p, ""] by { assert [p][1..] == []; }
        assert FrameLines(ps) + tail == [DataPrefix + p, ""] + (FrameLines(rest) + tail);
        DecodeTokenFrame(t, FrameLines(rest) + tail, c);
        var r := DecodeLines(tail, c.decode);
        if r.Success? {
          assert t + (Tokens(events[1..]) + r.value) == (t + Tokens(events[1..])) + r.value;
        }
    }
  }

  /** A token frame's two lines contribute its token in front of what follows. */
  lemma DecodeTokenFrame(t: string, more: seq<string>, c: Codec)
    requires SoundCodec(c)
    ensures DecodeLines([DataPrefix + c.encode(TokenObject(t)), ""] + more, c.decode) ==
              Prepend(t, DecodeLines(more, c.decode))
  {
    var p := c.encode(TokenObject(t));
    var lines := [DataPrefix + p, ""] + more;
    var line := DataPrefix + p;
    assert StartsWith(line, DataPrefix);
    assert line[|DataPrefix|..] == p;
    assert c.decode(p) == Some(TokenObject(t));
    assert p != Done;
    assert lines[1..] == [""] + more;
    assert lines[1..][1..] == more;
  }

  /** Every token payload is an encoded object, so none holds a line feed. */
  lemma {:induction false} TokenPayloadsHaveNoNewline(events: seq<Event>, c: Codec)
    requires SoundCodec(c)
    ensures forall i :: 0 <= i < |TokenPayloads(events, c)| ==> '\n' !in TokenPayloads(events, c)[i]
    decreases |events|
  {
    if |events| > 0 {
      TokenPayloadsHaveNoNewline(events[1..], c);
      var ps := TokenPayloads(events, c);
      var rest := TokenPayloads(events[1..], c);
      match Emitted(events[0])
      case None =>
      case Some(t) =>
        assert ps == [c.encode(TokenObject(t))] + rest;
        assert '\n' !in c.encode(TokenObject(t));
        forall i | 0 <= i < |ps| ensures '\n' !in ps[i] {
          if i > 0 { assert ps[i] == rest[i - 1]; }
        }
    }
  }

  /** The body of a stream splits into the token frames' lines and the last frame's. */
  lemma StreamLines(events: seq<Event>, failure: Option<string>, c: Codec)
    requires SoundCodec(c)
    ensures SplitLines(Concat(EventStream(events, failure, c))) ==
              FrameLines(TokenPayloads(events, c)) + [DataPrefix + LastPayload(failure, c), ""]
  {
    var ps := TokenPayloads(events, c);
    var last := LastPayload(failure, c);
    assert EventStream(events, failure, c) == Frames(ps + [last]);
    TokenPayloadsHaveNoNewline(events, c);
    assert '\n' !in last by {
      if failure.None? {
        assert forall i :: 0 <= i < |Done| ==> Done[i] != '\n';
      }
    }
    assert forall i :: 0 <= i < |ps + [last]| ==> '\n' !in (ps + [last])[i] by {
      forall i | 0 <= i < |ps + [last]| ensures '\n' !in (ps + [last])[i] {
        if i < |ps| { assert (ps + [last])[i] == ps[i]; }
      }
    }
    SplitFrames(ps + [last]);
    FrameLinesAppend(ps, [last]);
    assert FrameLines([last]) == [DataPrefix + last, ""] by {
      assert [last][1..] == [];
    }
  }

  /** The last frame decodes to the end of the answer, or to the error it carries. */
  lemma DecodeLastFrame(failure: Option<string>, c: Codec)
    requires SoundCodec(c)
    ensures DecodeLines([DataPrefix + LastPayload(failure, c), ""], c.decode) ==
              if failure.None? then Success("") else Failure(AgentError(JString(failure.value)))
  {
    var last := LastPayload(failure, c);
    var line := DataPrefix + last;
    assert StartsWith(line, DataPrefix) && line[|DataPrefix|..] == last;
    if failure.Some? {
      assert c.decode(last) == Some(ErrorObject(failure.value));
      assert last != Done;
    }
  }

  /** The framing round trip: a client reading a completed stream receives exactly the
      streamed tokens, concatenated; reading a failed stream, it receives the error. */
  lemma StreamRoundTrip(message: string, events: seq<Event>, failure: Option<string>, c: Codec)
    requires SoundCodec(c) && !IsBlank(message)
    ensures var body := Concat(EventStream(events, failure, c));
            var r := SendMessage(message, Some(HttpResponse(200, body)), c.decode);
            && (failure.None? ==> r == Success(Tokens(events)))
            && (failure.Some? ==> r == Failure(AgentError(JString(failure.value))))
  {
    var tail := [DataPrefix + LastPayload(failure, c), ""];
    StreamLines(events, failure, c);
    DecodeTokenLines(events, tail, c);
    DecodeLastFrame(failure, c);
    assert Tokens(events) + "" == Tokens(events);
  }
}

=== FILE: status.dfy ===
/** The polling endpoint of app/api/v1/status.py: the coarse status of a thread, read
    from the newest audit record of that thread and caller. */
module ThreadStatus {
  import opened Wrappers
  import opened Models

  /** The audit belongs to this thread and this caller. */
  predicate OfThread(a: AuditLog, threadId: string, userId: int) {
    a.threadId == threadId && a.userId == userId
  }

  /** The newest audit of the thread among the first `n` rows. Among rows with the
      same creation time the later row wins. */
  function NewestIn(audits: seq<AuditLog>, threadId: string, userId: int, n: nat): (id: Option<nat>)
    requires n <= |audits|
    ensures id.Some? ==> 1 <= id.value <= n && OfThread(audits[id.value - 1], threadId, userId)
    decreases n
  {
    if n == 0 then None
    else
      var best := NewestIn(audits, threadId, userId, n - 1);
      var a := audits[n - 1];
      if OfThread(a, threadId, userId) && (best.None? || a.createdAt >= audits[best.value - 1].createdAt)
      then Some(n)
      else best
  }

  /** The search finds a row of the thread exactly when there is one, and no row of the
      thread is newer than the one it finds. */
  lemma {:induction false} NewestInIsNewest(audits: seq<AuditLog>, threadId: string, userId: int, n: nat)
    requires n <= |audits|
    ensures var id := NewestIn(audits, threadId, userId, n);
            && (id.None? <==> forall i :: 0 <= i < n ==> !OfThread(audits[i], threadId, userId))
            && (id.Some? ==> forall i :: 0 <= i < n && OfThread(audits[i], threadId, userId) ==>
                               audits[i].createdAt <= audits[id.value - 1].createdAt)
    decreases n
  {
    if n > 0 {
      NewestInIsNewest(audits, threadId, userId, n - 1);
    }
  }

  /** The newest audit of the thread (`ORDER BY created_at DESC LIMIT 1`). */
  function NewestAudit(audits: seq<AuditLog>, threadId: string, userId: int): Option<nat> {
    NewestIn(audits, threadId, userId, |audits|)
  }

  datatype Status =
    | Processing
    | WaitingAdmin(auditLogId: nat, risk: RiskLevel, trigger: Trigger)
    | Approved(adminComment: Option<string>, reviewedAt: Option<int>)
    | Rejected(reason: string, adminComment: Option<string>, reviewedAt: Option<int>)

  /** The status string of the response. */
  function StatusName(s: Status): (name: string)
    ensures name in ["PROCESSING", "WAITING_ADMIN", "APPROVED", "REJECTED"]
  {
    match s
    case Processing => "PROCESSING"
    case WaitingAdmin(_, _, _) => "WAITING_ADMIN"
    case Approved(_, _) => "APPROVED"
    case Rejected(_, _, _) => "REJECTED"
  }

  /** The text shown after "审核未通过:" when the reviewer left no comment. */
  const ContactSupport: string := "请联系客服"

  /** `comment or '请联系客服'`: an absent or empty comment falls back. */
  function RejectReason(comment: Option<string>): (reason: string)
    ensures reason != ""
    ensures comment.Some? && comment.value != "" ==> reason == comment.value
  {
    if comment.None? || comment.value == "" then ContactSupport else comment.value
  }

  /** `get_thread_status`. */
  function GetThreadStatus(db: Db, threadId: string, userId: int): (s: Status)
    ensures StatusName(s) != "COMPLETED" && StatusName(s) != "ERROR"
    ensures var newest := NewestAudit(db.audits, threadId, userId);
            && (s.Processing? <==> newest.None? || db.audits[newest.value - 1].action == Escalate)
            && (newest.Some? ==>
                  var a := db.audits[newest.value - 1];
                  && (a.action == Pending ==> s == WaitingAdmin(newest.value, a.risk, a.trigger))
                  && (a.action == Approve ==> s == Approved(a.adminComment, a.reviewedAt))
                  && (a.action == Reject ==> s == Rejected(RejectReason(a.adminComment), a.adminComment, a.reviewedAt)))
  {
    match NewestAudit(db.audits, threadId, userId)
    case None => Processing
    case Some(id) =>
      var a := db.audits[id - 1];
      match a.action
      case Pending => WaitingAdmin(id, a.risk, a.trigger)
      case Approve => Approved(a.adminComment, a.reviewedAt)
      case Reject => Rejected(RejectReason(a.adminComment), a.adminComment, a.reviewedAt)
      case Escalate => Processing
  }

  /** The search sees only the thread, the caller and the creation time of each row:
      replacing a row by one that agrees on those leaves the answer alone. */
  lemma {:induction false} NewestInReplace(audits: seq<AuditLog>, k: nat, b: AuditLog, threadId: string, userId: int, n: nat)
    requires k < |audits| && n <= |audits|
    requires OfThread(b, threadId, userId) == OfThread(audits[k], threadId, userId)
    requires b.createdAt == audits[k].createdAt
    ensures NewestIn(audits[k := b], threadId, userId, n) == NewestIn(audits, threadId, userId, n)
    decreases n
  {
    if n > 0 {
      NewestInReplace(audits, k, b, threadId, userId, n - 1);
      var best := NewestIn(audits, threadId, userId, n - 1);
      if best.Some? {
        assert audits[k := b][best.value - 1].createdAt == audits[best.value - 1].createdAt;
      }
    }
  }

  lemma {:induction false} NewestInPrefix(audits: seq<AuditLog>, extra: seq<AuditLog>, threadId: string, userId: int, n: nat)
    requires n <= |audits|
    ensures NewestIn(audits + extra, threadId, userId, n) == NewestIn(audits, threadId, userId, n)
    decreases n
  {
    if n > 0 {
      NewestInPrefix(audits, extra, threadId, userId, n - 1);
      assert (audits + extra)[n - 1] == audits[n - 1];
    }
  }

  /** Audits of other threads or other users never change what a caller reads. */
  lemma OtherThreadsDoNotMatter(db: Db, a: AuditLog, threadId: string, userId: int)
    requires !OfThread(a, threadId, userId)
    ensures GetThreadStatus(db.(audits := db.audits + [a]), threadId, userId) == GetThreadStatus(db, threadId, userId)
  {
    NewestInPrefix(db.audits, [a], threadId, userId, |db.audits|);
  }
}

=== FILE: text.dfy ===
/** String helpers with the meaning Python gives them: substring search (`sub in s`),
    ASCII upper-casing (`str.upper`), whitespace stripping (`str.strip`) and decimal
    rendering of ids (`str(n)`). Only the ASCII part of Python's Unicode tables is
    modelled. */
module Text {

  /** `sub` occurs in `s` starting at index `i`. */
  predicate OccursAt(s: string, sub: string, i: int) {
    0 <= i && i + |sub| <= |s| && s[i..i + |sub|] == sub
  }

  /** Python's `sub in s`; the empty string occurs in every string. */
  predicate Contains(s: string, sub: string) {
    exists i :: 0 <= i <= |s| - |sub| && OccursAt(s, sub, i)
  }

  /** Some word of `words` occurs in `s`. */
  predicate ContainsAny(s: string, words: seq<string>) {
    exists k :: 0 <= k < |words| && Contains(s, words[k])
  }

  predicate IsDigit(c: char) {
    '0' <= c <= '9'
  }

  predicate AllDigits(s: string) {
    forall i :: 0 <= i < |s| ==> IsDigit(s[i])
  }

  /** `str.upper` on one character, ASCII letters only. */
  function UpperChar(c: char): (u: char)
    ensures IsDigit(u) <==> IsDigit(c)
    ensures 'a' <= c <= 'z' ==> 'A' <= u <= 'Z' && u as int == c as int - 32
    ensures !('a' <= c <= 'z') ==> u == c
  {
    if 'a' <= c <= 'z' then (c as int - 32) as char else c
  }

  function Upper(s: string): (r: string)
    ensures |r| == |s|
    ensures forall i :: 0 <= i < |s| ==> r[i] == UpperChar(s[i])
  {
    seq(|s|, i requires 0 <= i < |s| => UpperChar(s[i]))
  }

  /** The ASCII characters for which Python's `str.isspace` holds:
      tab, line feed, vertical tab, form feed, carriage return, the four
      information separators and the space. */
  predicate IsSpace(c: char) {
    var n := c as int;
    n == 32 || 9 <= n <= 13 || 28 <= n <= 31
  }

  predicate IsBlank(s: string) {
    forall i :: 0 <= i < |s| ==> IsSpace(s[i])
  }

  /** The first index at or after `from` that is not whitespace. */
  function SkipSpaces(s: string, from: nat): (k: nat)
    requires from <= |s|
    ensures from <= k <= |s|
    ensures forall j :: from <= j < k ==> IsSpace(s[j])
    ensures k == |s| || !IsSpace(s[k])
    decreases |s| - from
  {
    if from < |s| && IsSpace(s[from]) then SkipSpaces(s, from + 1) else from
  }

  /** The length of `s` once its trailing whitespace is dropped. */
  function TrimmedLength(s: string): (k: nat)
    ensures k <= |s|
    ensures forall j :: k <= j < |s| ==> IsSpace(s[j])
    ensures k == 0 || !IsSpace(s[k - 1])
  {
    if |s| > 0 && IsSpace(s[|s| - 1]) then TrimmedLength(s[..|s| - 1]) else |s|
  }

  /** Python's `s.strip()`. */
  function Strip(s: string): (r: string)
    ensures Contains(s, r)
    ensures |r| > 0 ==> !IsSpace(r[0]) && !IsSpace(r[|r| - 1])
    ensures r == [] <==> IsBlank(s)
  {
    var a := SkipSpaces(s, 0);
    var rest := s[a..];
    var r := rest[..TrimmedLength(rest)];
    assert OccursAt(s, r, a);
    r
  }

  function DigitChar(d: nat): (c: char)
    requires d < 10
    ensures IsDigit(c)
  {
    ('0' as int + d) as char
  }

  function DigitValue(c: char): (d: nat)
    requires IsDigit(c)
    ensures d < 10 && DigitChar(d) == c
  {
    c as int - '0' as int
  }

  /** Python's `str(n)` for a non-negative integer. */
  function NatToString(n: nat): (r: string)
    ensures |r| >= 1
    ensures AllDigits(r)
    decreases n
  {
    if n < 10 then [DigitChar(n)] else NatToString(n / 10) + [DigitChar(n % 10)]
  }

  /** Python's `int(s)` on a string of decimal digits. */
  function ParseNat(s: string): nat
    requires AllDigits(s)
    decreases |s|
  {
    if |s| == 0 then 0 else ParseNat(s[..|s| - 1]) * 10 + DigitValue(s[|s| - 1])
  }

  /** Rendering an id in decimal loses nothing: parsing it back yields the id. */
  lemma {:induction false} ParseNatToString(n: nat)
    ensures ParseNat(NatToString(n)) == n
    decreases n
  {
    var r := NatToString(n);
    if n >= 10 {
      ParseNatToString(n / 10);
      assert r[..|r| - 1] == NatToString(n / 10);
      assert DigitValue(DigitChar(n % 10)) == n % 10;
    } else {
      assert DigitValue(DigitChar(n)) == n;
    }
  }

  /** Different ids have different decimal renderings. */
  lemma NatToStringInjective(a: nat, b: nat)
    ensures NatToString(a) == NatToString(b) ==> a == b
  {
    ParseNatToString(a);
    ParseNatToString(b);
  }
}

=== FILE: workflow.dfy ===
/** The conversation graph of app/graph/workflow.py: its nodes, its two routing
    functions and its edge table, with the structural guarantees that the refund path
    always passes the risk gate and that every run ends after at most four nodes. */
module Workflow {
  import opened Wrappers

  datatype Node = Start | IntentRouter | Retrieve | QueryOrder | HandleRefund | CheckRefundEligibility | Generate | End

  /** `route_intent`: the node that follows the intent router. */
  function RouteIntent(intent: Option<string>): (n: Node)
    ensures n == QueryOrder <==> intent == Some("ORDER")
    ensures n == Retrieve <==> intent == Some("POLICY")
    ensures n == HandleRefund <==> intent == Some("REFUND")
    ensures n == Generate <==> !(intent.Some? && intent.value in ["ORDER", "POLICY", "REFUND"])
  {
    if intent == Some("ORDER") then QueryOrder
    else if intent == Some("POLICY") then Retrieve
    else if intent == Some("REFUND") then HandleRefund
    else Generate
  }

  /** `route_after_refund`: stop when a review is required (a missing flag reads as
      false), otherwise generate the answer. */
  function RouteAfterRefund(auditRequired: Option<bool>): (n: Node)
    ensures n == End <==> auditRequired == Some(true)
    ensures n == Generate <==> auditRequired != Some(true)
  {
    if auditRequired.GetOr(false) then End else Generate
  }

  /** Every edge of the graph, the conditional ones included. */
  function Successors(n: Node): set<Node> {
    match n
    case Start => {IntentRouter}
    case IntentRouter => {QueryOrder, Retrieve, HandleRefund, Generate}
    case QueryOrder => {Generate}
    case Retrieve => {Generate}
    case HandleRefund => {CheckRefundEligibility}
    case CheckRefundEligibility => {Generate, End}
    case Generate => {End}
    case End => {}
  }

  /** The conditional edges are exactly the targets of the routing functions. */
  lemma ConditionalEdgesMatchRouters()
    ensures forall i :: RouteIntent(i) in Successors(IntentRouter)
    ensures forall m :: m in Successors(IntentRouter) ==> exists i :: RouteIntent(i) == m
    ensures forall f :: RouteAfterRefund(f) in Successors(CheckRefundEligibility)
    ensures forall m :: m in Successors(CheckRefundEligibility) ==> exists f :: RouteAfterRefund(f) == m
  {
    assert RouteIntent(Some("ORDER")) == QueryOrder;
    assert RouteIntent(Some("POLICY")) == Retrieve;
    assert RouteIntent(Some("REFUND")) == HandleRefund;
    assert RouteIntent(None) == Generate;
    assert RouteAfterRefund(Some(true)) == End;
    assert RouteAfterRefund(None) == Generate;
  }

  /** The length of the longest walk from `n` to END. */
  function Height(n: Node): nat {
    match n
    case Start => 5
    case IntentRouter => 4
    case HandleRefund => 3
    case CheckRefundEligibility => 2
    case QueryOrder => 2
    case Retrieve => 2
    case Generate => 1
    case End => 0
  }

  /** Every edge goes strictly down in height, so the graph is acyclic, and END is
      the only node without a successor. */
  lemma EdgesDescend(n: Node, m: Node)
    ensures m in Successors(n) ==> Height(m) < Height(n)
    ensures Successors(n) == {} <==> n == End
  {
    if n != End {
      match n
      case Start => assert IntentRouter in Successors(n);
      case IntentRouter => assert Generate in Successors(n);
      case QueryOrder => assert Generate in Successors(n);
      case Retrieve => assert Generate in Successors(n);
      case HandleRefund => assert CheckRefundEligibility in Successors(n);
      case CheckRefundEligibility => assert End in Successors(n);
      case Generate => assert End in Successors(n);
    }
  }

  /** A walk along the edges of the graph. */
  predicate IsPath(p: seq<Node>) {
    |p| >= 1 && forall i :: 0 <= i < |p| - 1 ==> p[i + 1] in Successors(p[i])
  }

  lemma {:induction false} HeightAlongPath(p: seq<Node>, i: nat)
    requires IsPath(p) && i < |p|
    ensures Height(p[i]) + i <= Height(p[0])
  {
    if i > 0 {
      HeightAlongPath(p, i - 1);
      EdgesDescend(p[i - 1], p[i]);
    }
  }

  /** A walk from START visits at most four nodes between START and END and never
      visits a node twice. */
  lemma PathsAreShortAndAcyclic(p: seq<Node>)
    requires IsPath(p) && p[0] == Start
    ensures |p| <= 6
    ensures forall i, j :: 0 <= i < j < |p| ==> p[i] != p[j]
  {
    HeightAlongPath(p, |p| - 1);
    forall i, j | 0 <= i < j < |p| ensures p[i] != p[j] {
      HeightAlongPath(p[i..], j - i);
      assert p[i..][j - i] == p[j];
    }
  }

  /** On every walk, `handle_refund` is followed by the risk gate, and the gate is
      entered from nowhere else. */
  lemma RefundAlwaysPassesGate(p: seq<Node>, i: nat)
    requires IsPath(p) && i < |p|
    ensures p[i] == HandleRefund && i + 1 < |p| ==> p[i + 1] == CheckRefundEligibility
    ensures p[i] == CheckRefundEligibility && i > 0 ==> p[i - 1] == HandleRefund
  {
    if i > 0 {
      assert p[i] in Successors(p[i - 1]);
    }
  }

  /** One run of the graph for an intent tag and the gate's `audit_required` flag. */
  function Run(intent: Option<string>, auditRequired: Option<bool>): (p: seq<Node>)
    ensures IsPath(p) && p[0] == Start && p[|p| - 1] == End
    ensures HandleRefund in p <==> intent == Some("REFUND")
    ensures CheckRefundEligibility in p <==> intent == Some("REFUND")
    ensures Generate !in p <==> intent == Some("REFUND") && auditRequired == Some(true)
    ensures |p| <= 6
  {
    var first := RouteIntent(intent);
    if first == HandleRefund then
      var after := RouteAfterRefund(auditRequired);
      if after == End then [Start, IntentRouter, HandleRefund, CheckRefundEligibility, End]
      else [Start, IntentRouter, HandleRefund, CheckRefundEligibility, Generate, End]
    else if first == Generate then [Start, IntentRouter, Generate, End]
    else [Start, IntentRouter, first, Generate, End]
  }
}

=== FILE: wrappers.dfy ===
/** Failure-compatible wrappers used throughout the model: `Option` for the
    source's `None`-returning lookups and `Result` for its error returns. */
module Wrappers {

  datatype Option<+T> = None | Some(value: T) {

    predicate IsFailure() {
      None?
    }

    function PropagateFailure<U>(): Option<U>
      requires None?
    {
      None
    }

    function Extract(): T
      requires Some?
    {
      value
    }

    function GetOr(default: T): T {
      match this
      case Some(v) => v
      case None => default
    }
  }

  datatype Result<+R, +E> = Success(value: R) | Failure(error: E) {

    predicate IsFailure() {
      Failure?
    }

    function PropagateFailure<U>(): Result<U, E>
      requires Failure?
    {
      Failure(error)
    }

    function Extract(): R
      requires Success?
    {
      value
    }
  }
}
